=== FILE: README.md ===
# Thread-pool HTTP key-value server: a verified model of its core

The server keeps string values under string keys and serves them over a small subset of
HTTP/1.1. `POST /key` stores the request body, `GET /key` returns it and `DELETE /key` erases
it. The server accepts each connection and puts it on a FIFO task queue. A worker takes a
connection off the queue and reads requests from it; it parses each request and hands it
to the store. The store keeps its entries in a bounded least-recently-used cache in front
of a storage directory that holds one file per key.

This project models four sequential parts of that server and proves properties about them:

- `kvstore.dfy` (module `KVStore`) models the key-value store `ThreadSafeKVStore`.
  - Its state is the cache map, the recency list and the capacity. The storage directory is
    a map from key to file content.
  - `insert`, `lookup`, `remove`, `cacheWriteBack` and the destructor are first given as
    functions on a `Snapshot` of the state, with lemmas about them. The class
    `ThreadSafeKVStore` then performs each one step by step on its fields and is proved to
    follow those functions.
  - The proved facts include the cache invariant, every single-step rule of the LRU policy,
    and the fact that eviction and write-back never change what the store answers. One
    consequence: `insert(k, v)` followed by `lookup(k)` returns `v`.
- `recency_list.dfy` (module `RecencyList`) covers the recency list and `std::list::remove`.
- `task_queue.dfy` (module `TaskQueue`) models `ThreadSafeQueue<T>`.
  - It is a singly linked chain of nodes in a heap of handles. `head` always points at a
    sentinel node.
  - The proofs cover emptiness as `head == tail`, enqueue and dequeue, FIFO order over any
    sequence of operations, and what the destructor frees.
- `http_parser.dfy` (module `HttpParser`) models `parseHTTP` and `strToLower`.
  - `input_stream.dfy` (module `InputStream`) models the `std::istringstream` they read from.
  - `text.dfy` (module `Text`) models `std::isspace`, `std::tolower`, `std::stoi` and
    `std::to_string`.
  - The parser reads the request line: method, request-target and version (section 3.1.1 of
    RFC 7230). For a POST it also reads a `Content-Length` header, matched without regard to
    case (section 3.3.2 of RFC 7230), and then a body of that length. Errors return -1, -2
    and -3, checked in that order.
  - There is one function per stage, and the method `ParseHTTP` runs the two header loops
    and is proved equal to those functions.
- `request_handler.dfy` (module `RequestHandler`) models `handleRequest`.
  - It sends each request kind to one store operation, counts the operation and builds the
    exact response text.
  - `Scenario` chains the parser, the handler and the store over one connection: a POST, a
    GET, a DELETE and a GET of the same key.

A successful GET declares `Content-length` as the length of the value. It then sends the
value followed by a CRLF, so the CRLF is outside the declared length. `ResponseLayout` and
`ResponseFraming` state this as the code does it.

## Model

| member | source | states |
|---|---|---|
| Text.Lower | httpProcessingFunc.cpp:12-15 | the lower-cased string has the same length, and each character is the `tolower` image of the original, which changes only 'A' to 'Z' |
| Text.LowerChar | httpProcessingFunc.cpp:13 | `tolower` turns each letter 'A' to 'Z' into its lower-case letter, 32 code points up, and leaves every other character as it is |
| Text.LowerIdempotent | httpProcessingFunc.cpp:12-15 | lower-casing twice gives the same string as lower-casing once |
| Text.LowerKeepsClasses | httpProcessingFunc.cpp:43 | lower-casing neither creates nor removes white space or NUL, so a lower-cased token is still a token |
| Text.SkipSpace | httpProcessingFunc.cpp:20 | `>>` and `stoi` first skip white space: they stop at the first position, from where they start, that is not white space, or at the end |
| Text.SpaceFrom | httpProcessingFunc.cpp:20 | a token read by `>>` runs up to the first white space after its start, or to the end |
| Text.SkipSpaceTo | httpProcessingFunc.cpp:20 | the white-space skip stops exactly at the first character that is not white space |
| Text.DigitsEnd | httpProcessingFunc.cpp:45 | `stoi` reads digits up to the first character that is not a digit, or to the end |
| Text.DigitsEndTo | httpProcessingFunc.cpp:45 | the digit run ends exactly at the first character that is not a digit |
| Text.StoI | httpProcessingFunc.cpp:45 | `std::stoi` skips leading white space and reads a sign and digits; its result, when there is one, lies in the `int` range (when it throws is stated by `StoINoDigits` and `StoIOverflow`) |
| Text.StoINoDigits | httpProcessingFunc.cpp:45 | `stoi` throws when only white space is left, or when the first character after the white space is neither a sign nor a digit |
| Text.StoIOverflow | httpProcessingFunc.cpp:45 | `stoi` throws on white space followed by the digits of a number above `INT_MAX` |
| Text.NatToString | requestHandler.cpp:34 | `std::to_string` of a length is a non-empty string of decimal digits, one digit exactly for values below 10; it is "0" for 0 and otherwise has no leading zero |
| Text.NatToStringValue | requestHandler.cpp:34 | the decimal digits written for a length read back as that length |
| Text.StoINatToString | httpProcessingFunc.cpp:44-45 | `stoi` on white space, the digits of `n`, then a non-digit gives back `n` |
| InputStream.Open | httpProcessingFunc.cpp:18 | a new string stream is good and positioned at the start of the text |
| InputStream.ReadToken | httpProcessingFunc.cpp:20 | `>>` never moves backwards; on failure it leaves the token as it was; on success the token is non-empty with no white space |
| InputStream.GetLine | httpProcessingFunc.cpp:44 | `getline` never moves backwards, and the line it returns holds no newline |
| InputStream.ReadInto | httpProcessingFunc.cpp:52-53 | the body has exactly `length` characters: those at the read position, then `'\0'` padding when the text runs out, and all NULs on a failed stream |
| InputStream.ReadTokenAt | httpProcessingFunc.cpp:20 | on text that is white space, then a word, then white space or the end, `>>` yields the word and stops just after it |
| InputStream.GetLineAt | httpProcessingFunc.cpp:50 | `getline` yields the text up to the next newline and resumes just after it |
| HttpParser.CString | httpProcessingFunc.cpp:18 | the string built from the buffer is the part of it before the first NUL: a prefix of the buffer, holding no NUL, followed in the buffer by a NUL or by nothing; a buffer without NUL is taken whole |
| HttpParser.StrToLower | httpProcessingFunc.cpp:12-15 | the array afterwards holds the lower-cased form of what it held before |
| HttpParser.MethodOf | httpProcessingFunc.cpp:21-29 | a token is GET, POST or DELETE exactly when it is spelled that way; any other token is no method |
| HttpParser.Parse | httpProcessingFunc.cpp:17-56 | a return code is 0, -1, -2 or -3; a failure, a GET or a DELETE leaves the request's value as it was |
| HttpParser.ParseTarget | httpProcessingFunc.cpp:30-34 | after the method, the outcome is 0, -2 or -3, and the stored method stays |
| HttpParser.ParseVersion | httpProcessingFunc.cpp:35-39 | after the key, the outcome is 0 or -3; a failure, a GET or a DELETE keeps the request as the first two tokens left it |
| HttpParser.ParseBody | httpProcessingFunc.cpp:39-55 | the POST tail either throws or returns 0, and it changes only the request's value |
| HttpParser.ScanHeaders | httpProcessingFunc.cpp:40-48 | the first loop never moves backwards; without a length line it ends at the end of the text, holding a token other than `content-length:`; with one, the length line is the token it holds (that the first `content-length:` token supplies the length is stated by `ScanStep`, `ScanFields` and `PostScan`) |
| HttpParser.SkipHeaderLines | httpProcessingFunc.cpp:49-51 | the second loop never moves backwards, and it stops on an empty line, on a "\r" line or at the end of the text (that it stops at the first such line is stated by `SkipStep`, `SkipLines` and `BlankStop`) |
| HttpParser.ParseHTTP | httpProcessingFunc.cpp:17-56 | the step-by-step parser, with its two header loops, ends with exactly the outcome `Parse` gives |
| HttpParser.ReadBody | httpProcessingFunc.cpp:39-54 | the POST branch yields exactly the outcome `ParseBody` gives |
| HttpParser.ReadHeaders | httpProcessingFunc.cpp:40-48 | the first loop, which lower-cases each token in place, yields the `stoi` of the rest of the first `content-length:` line, or 0 without one, and stops where `ScanHeaders` stops |
| HttpParser.SkipHeaders | httpProcessingFunc.cpp:49-51 | the second loop stops at the first empty or "\r" line, or at the end, as `SkipHeaderLines` does |
| HttpParser.MethodName | httpProcessingFunc.cpp:21-26 | each method's spelling is recognised as that method and is a single token |
| HttpParser.ParseRequestLine | httpProcessingFunc.cpp:17-39 | a well-formed GET or DELETE line returns 0 with that method and key, whatever follows, and keeps the value |
| HttpParser.ParseUnknownMethod | httpProcessingFunc.cpp:20-29 | a first token other than GET, POST or DELETE, or no first token at all, returns -1 with the request unchanged |
| HttpParser.ParseBlank | httpProcessingFunc.cpp:18-29 | a buffer whose C string is empty or only white space returns -1 with the request unchanged, since the failed `>>` leaves the token empty |
| HttpParser.ParseBadTarget | httpProcessingFunc.cpp:30-33 | a known method followed by a target not starting with '/', or by no target at all, returns -2 after storing the method |
| HttpParser.ParseMissingTarget | httpProcessingFunc.cpp:20-33 | a method with only white space after it returns -2 after storing the method, since the failed `>>` keeps the method as the token |
| HttpParser.ParseBadVersion | httpProcessingFunc.cpp:35-38 | a third token other than `HTTP/1.1`, or no third token at all, returns -3 after storing the method and key |
| HttpParser.ParseMissingVersion | httpProcessingFunc.cpp:30-38 | a method and a request-target with only white space after them return -3 after storing the method and key, since the failed `>>` keeps "/key" as the token |
| HttpParser.VersionMissing | httpProcessingFunc.cpp:35-38 | with only white space left after the request-target, the third `>>` fails and the version check returns -3 |
| HttpParser.ParseLine | httpProcessingFunc.cpp:17-39 | a well-formed request line stores its method and key; only a POST goes on to read headers |
| HttpParser.ParsePostWithoutHeaders | httpProcessingFunc.cpp:39-55 | a POST line with no header has length 0 and parses with an empty body |
| HttpParser.PostScan | httpProcessingFunc.cpp:40-48 | the header scan stops at the `Content-Length` line, whatever the case of its name, and keeps the rest of that line |
| HttpParser.PostSkip | httpProcessingFunc.cpp:49-51 | after the `Content-Length` line the blank line ends the header skip, just before the body |
| HttpParser.PostBodyRead | httpProcessingFunc.cpp:52-53 | reading the declared number of characters from the start of the body yields the body |
| HttpParser.PostBody | httpProcessingFunc.cpp:39-55 | once the header scan has found the length, the POST tail returns 0 with the body as the value |
| HttpParser.PostAfterLine | httpProcessingFunc.cpp:39-55 | after a POST request line, a `Content-Length` header and a blank line, exactly the body is read |
| HttpParser.PostAt | httpProcessingFunc.cpp:39-55 | from a `Content-Length` line giving the body's length, then a blank line and the body, the POST tail returns 0 with exactly the body |
| HttpParser.ParseBodyByScan | httpProcessingFunc.cpp:39-55 | everything after the first loop depends only on where that loop stops and what it found |
| HttpParser.ParsePost | httpProcessingFunc.cpp:17-55 | a POST with a `Content-Length` header in any case, giving the body's length, parses to its key and exactly its body |
| HttpParser.ScanStep | httpProcessingFunc.cpp:41-48 | one pass of the first loop: a token read before the end that does not lower-case to `content-length:` is passed over, and the loop goes on after it, holding that token lower-cased |
| HttpParser.TokenIrrelevant | httpProcessingFunc.cpp:41-43 | while a token lies ahead, the first loop does not depend on the token it held before, since `>>` overwrites it |
| HttpParser.FieldRead | httpProcessingFunc.cpp:42 | `>>` on white space, a header word and white space reads the word and stops before the end |
| HttpParser.FieldStep | httpProcessingFunc.cpp:41-48 | the first loop passes over one header word that is not `content-length:` and goes on after it |
| HttpParser.ScanFields | httpProcessingFunc.cpp:41-48 | the first loop passes over any run of header words none of which lower-cases to `content-length:`, one word per pass |
| HttpParser.LastTokenName | httpProcessingFunc.cpp:43 | no token the loop holds after such a run lower-cases to `content-length:` |
| HttpParser.FieldsThenToken | httpProcessingFunc.cpp:41-48 | with a token still ahead, the first loop ends as if the header words before it were not there |
| HttpParser.BodyAfterFields | httpProcessingFunc.cpp:39-55 | after the request line and any other header words, the `Content-Length` line supplies the length and exactly the body is read |
| HttpParser.ParsePostAfterFields | httpProcessingFunc.cpp:17-55 | a POST whose `Content-Length` header, in any case, follows any other header lines parses to its key and exactly its body |
| HttpParser.ReadAtEnd | httpProcessingFunc.cpp:42 | with only white space left, `>>` fails at the end of the text and leaves the token as it was |
| HttpParser.ScanAtEnd | httpProcessingFunc.cpp:40-48 | with only white space left and no `content-length:` token held, the first loop ends at the end of the text with no length line |
| HttpParser.EndAt | httpProcessingFunc.cpp:39-54 | past the last header, with only white space left, the first loop finds no length, so the length is 0 and the body is empty |
| HttpParser.BodyWithoutLength | httpProcessingFunc.cpp:39-54 | after the request line and header words with no `Content-Length` among them, ending in white space, the POST tail returns 0 with an empty body |
| HttpParser.ParsePostWithoutLength | httpProcessingFunc.cpp:17-55 | a POST with header lines but no `Content-Length` header parses to its key with an empty body |
| HttpParser.SkipStep | httpProcessingFunc.cpp:49-51 | one pass of the second loop: a line that is neither empty nor "\r", read before the end, is passed over, and the loop goes on after it, holding that line |
| HttpParser.LineIrrelevant | httpProcessingFunc.cpp:50 | while text lies ahead, the second loop does not depend on the line it held before, since `getline` overwrites it |
| HttpParser.LineStep | httpProcessingFunc.cpp:49-51 | the second loop passes over one header line and its "\n", and goes on just after them |
| HttpParser.SkipLines | httpProcessingFunc.cpp:49-51 | the second loop passes over any run of lines, none empty or "\r", ending before the end of the text, as if they were not there |
| HttpParser.BlankStop | httpProcessingFunc.cpp:49-51 | at a blank line, "\r\n" or a bare "\n", the second loop stops just after its line break, holding "\r" or "" |
| HttpParser.LinesSkip | httpProcessingFunc.cpp:49-51 | from the lines after the `Content-Length` line, the second loop stops just after the first blank line |
| HttpParser.BodyFrom | httpProcessingFunc.cpp:39-55 | when the first loop finds a length line that `stoi` reads as the body's length and the second loop stops where the body starts, the POST tail returns 0 with exactly the body |
| HttpParser.LinesAt | httpProcessingFunc.cpp:39-55 | from a `Content-Length` line giving the body's length, more header lines, a blank line and the body, the POST tail returns 0 with exactly the body |
| HttpParser.BodyWithTrailingLines | httpProcessingFunc.cpp:39-55 | after the request line, header words, the `Content-Length` line, more header lines and a blank line, exactly the body is read |
| HttpParser.ParsePostWithTrailingHeaders | httpProcessingFunc.cpp:17-55 | a POST with header lines both before and after its `Content-Length` line, ended by the first blank line ("\r\n" or "\n"), parses to its key and exactly its body |
| RecencyList.RemoveAll | threadSafeKVStore.cpp:56 | `list::remove(k)` keeps exactly the elements other than `k`, never grows the list, and changes nothing when `k` is absent |
| RecencyList.RemoveAllNoDup | threadSafeKVStore.cpp:56 | removing a key from a list without duplicates leaves a list without duplicates |
| RecencyList.RemoveAllAt | threadSafeKVStore.cpp:86 | in a list without duplicates, removing the key at position `i` leaves the other keys in their order |
| RecencyList.NoDupCard | threadSafeKVStore.cpp:62 | the length of a list without duplicates is its number of distinct keys |
| KVStore.Contents | threadSafeKVStore.cpp:83-88 | the store answers from the cache first, then from the directory |
| KVStore.Fresh | threadSafeKVStore.hpp:27-32 | a new store has an empty cache that meets the invariant for any capacity, and it answers with what the directory holds |
| KVStore.Evict | threadSafeKVStore.cpp:64-70 | eviction writes the front key's value to its file and drops that key from the cache; the list is one shorter, and every other key stays cached or filed as it was |
| KVStore.InsertSpec | threadSafeKVStore.cpp:52-78 | with caching on, the key is cached with the new value and is the most recent; with capacity 0 the pair goes straight to its file and the cache stays empty; the cache never exceeds its capacity |
| KVStore.LookupSpec | threadSafeKVStore.cpp:80-107 | returns -1 exactly when the key is neither cached nor filed, and then changes nothing and hands back ""; with caching on, a found key ends up cached and most recent |
| KVStore.RemoveSpec | threadSafeKVStore.cpp:109-120 | the key leaves the cache map, the recency list and the directory; every other key stays where it was |
| KVStore.WrittenBack | threadSafeKVStore.cpp:42-50 | afterwards the directory holds every cached entry whose write did not fail, with its cached value, and every other file as it was |
| KVStore.WriteBackCode | threadSafeKVStore.cpp:42-50 | the result is 0 or -1, and it is 0 exactly when no cached key's write failed |
| KVStore.CacheBounded | threadSafeKVStore.cpp:62-71 | under the invariant the cache holds at most `cacheSize` entries |
| KVStore.EvictKeepsInv | threadSafeKVStore.cpp:64-70 | evicting the front key keeps the list and map keys equal and duplicate-free, one entry shorter |
| KVStore.InsertKeepsInv | threadSafeKVStore.cpp:55-71 | `insert` keeps the invariant: list keys equal map keys, no duplicates, size at most `cacheSize` |
| KVStore.LookupKeepsInv | threadSafeKVStore.cpp:83-103 | `lookup` keeps the invariant |
| KVStore.RemoveKeepsInv | threadSafeKVStore.cpp:112-113 | `remove` keeps the invariant |
| KVStore.EvictKeepsContents | threadSafeKVStore.cpp:64-70 | eviction writes the front value to its file before dropping it, so the store's answers do not change |
| KVStore.InsertContents | threadSafeKVStore.hpp:50-58 | `insert(key, value)` adds the pair or updates the value, whether or not it evicts, and changes nothing else |
| KVStore.AdmitKeepsContents | threadSafeKVStore.cpp:88-103 | admitting a key read from its file, after any eviction, leaves the store's answers unchanged |
| KVStore.LookupContents | threadSafeKVStore.hpp:60-68 | `lookup` returns 0 and the value exactly when the key is present, and -1 otherwise; it never changes what the store answers |
| KVStore.RemoveContents | threadSafeKVStore.hpp:70-78 | `remove(key)` erases exactly `key`, and does nothing when it is absent |
| KVStore.WriteBackKeepsContents | threadSafeKVStore.cpp:42-50 | write-back does not change what the store answers |
| KVStore.WriteBackPersists | threadSafeKVStore.hpp:35-48 | a write-back with no failed write leaves every entry the store holds in its file |
| KVStore.WriteBackStep | threadSafeKVStore.cpp:44-48 | one loop step writes the file of a key unless its write fails, and a failure makes the result -1 |
| KVStore.InsertCached | threadSafeKVStore.cpp:55-58 | inserting a cached key replaces its value and moves it to the back; the other keys keep their order, and no file is written |
| KVStore.InsertEvicts | threadSafeKVStore.cpp:59-71 | a new key in a full cache evicts exactly the front key, whose value goes to its file; with capacity 0 the new pair itself goes to its file |
| KVStore.InsertAdmits | threadSafeKVStore.cpp:59-62 | a new key with room in the cache is added at the back, and no file is written |
| KVStore.LookupHit | threadSafeKVStore.cpp:83-87 | a hit returns 0 and the cached value, moves the key to the back, and changes no value or file |
| KVStore.LookupFromDisk | threadSafeKVStore.cpp:88-104 | a miss whose file exists returns 0 and its content; the key is admitted exactly when caching is on, evicting the front key first when the cache is full |
| KVStore.RemoveThenLookup | threadSafeKVStore.cpp:109-120 | after `remove(key)`, a `lookup(key)` returns -1 whether or not the key existed |
| KVStore.InsertThenLookup | threadSafeKVStore.cpp:52-107 | after `insert(key, value)`, a `lookup(key)` returns 0 and `value`, even when the pair went straight to its file |
| KVStore.ThreadSafeKVStore.constructor | threadSafeKVStore.cpp:29-31 | a new store has an empty cache in front of the directory and meets the invariant |
| KVStore.ThreadSafeKVStore.Insert | threadSafeKVStore.cpp:52-78 | performs `InsertSpec` in place and returns 0; the contents become the old contents with `key` set to `value` |
| KVStore.ThreadSafeKVStore.Lookup | threadSafeKVStore.cpp:80-107 | performs `LookupSpec` in place; returns 0 and the value exactly when the key is present, -1 otherwise; the contents are unchanged |
| KVStore.ThreadSafeKVStore.Remove | threadSafeKVStore.cpp:109-120 | performs `RemoveSpec` in place and returns 0; the contents lose `key` and nothing else |
| KVStore.ThreadSafeKVStore.CacheWriteBack | threadSafeKVStore.cpp:42-50 | its loop writes every cached entry whose write does not fail, keeps the cache, returns -1 exactly when some write failed, and keeps the contents |
| KVStore.ThreadSafeKVStore.Destroy | threadSafeKVStore.cpp:33-40 | the destructor's write-back is fatal exactly when some cached write fails; otherwise the directory afterwards holds everything the store answered |
| TaskQueue.LinkedAppend | threadSafeQueue.hpp:65-73 | linking a fresh node after the last node extends the chain and the contents by one element |
| TaskQueue.LinkedPop | threadSafeQueue.hpp:87-90 | dropping the sentinel makes the first data node the new sentinel and removes the first element |
| TaskQueue.ThreadSafeQueue.constructor | threadSafeQueue.hpp:20-26 | a new queue is one sentinel node that `head` and `tail` both point at, holding nothing |
| TaskQueue.ThreadSafeQueue.IsEmpty | threadSafeQueue.hpp:56-58 | `head == tail` holds exactly when nothing is queued |
| TaskQueue.ThreadSafeQueue.Enqueue | threadSafeQueue.hpp:65-73 | the element is appended in a new node after the old tail, which links to it; the new node becomes the tail, and the queue is non-empty |
| TaskQueue.ThreadSafeQueue.Dequeue | threadSafeQueue.hpp:80-93 | on a non-empty queue, returns the oldest element, held in `head->next`; that node becomes the sentinel, the old sentinel is deleted, and the rest keep their order |
| TaskQueue.ThreadSafeQueue.DeleteUntilTail | threadSafeQueue.hpp:34-40 | the destructor's loop deletes every node from its start up to, but not including, `tail`, and touches no other node |
| TaskQueue.ThreadSafeQueue.Destroy | threadSafeQueue.hpp:31-43 | the destructor as written frees everything from an empty queue, but from a non-empty one the last node stays allocated |
| TaskQueue.ThreadSafeQueue.DestroyAll | threadSafeQueue.hpp:31-43 | the corrected destructor frees every node |
| TaskQueue.Filled | threadSafeQueue.hpp:65-73 | enqueuing the elements one after another gives a queue whose contents are those elements in order |
| TaskQueue.Drain | threadSafeQueue.hpp:80-93 | dequeuing until empty yields the contents in queue order |
| TaskQueue.EnqueueThenDrain | threadSafeQueue.hpp:65-93 | elements come out in the order they went in (FIFO) |
| TaskQueue.DestroyLeaksLastNode | threadSafeQueue.hpp:31-43 | after one enqueue, the destructor as written leaves one node allocated |
| TaskQueue.DestroyAllLeavesNothing | threadSafeQueue.hpp:31-43 | after one enqueue, the corrected destructor leaves no node allocated |
| RequestHandler.Response | requestHandler.cpp:29-41 | the status code is 200 exactly when the store returned 0, and 404 otherwise |
| RequestHandler.ResponseLayout | requestHandler.cpp:29-41 | a response is a status line (200 exactly when the store returned 0) followed by `Content-length`, whose decimal value is the value's length for a successful GET and 0 otherwise, a blank line and a payload |
| RequestHandler.ResponseFraming | requestHandler.cpp:29-41 | every response starts with `HTTP/1.1 `, and its header ends with `\r\n\r\n`, followed only by the value and CRLF of a successful GET, or by nothing |
| RequestHandler.Stats.constructor | threadPoolServer.cpp:48-50 | the lookup, insert and delete counters all start at 0 |
| RequestHandler.HandleRequest | requestHandler.cpp:9-43 | GET performs `lookup`, POST `insert` and DELETE `remove`; exactly the matching counter goes up by one; the response is 404 exactly for a GET of an absent key, 200 with the value for a found GET, and the empty 200 for every POST and DELETE |
| RequestHandler.HeaderSpelling | httpProcessingFunc.cpp:43 | the usual spelling `Content-Length:` lower-cases to the name the parser looks for |
| RequestHandler.ScenarioPost | httpProcessingFunc.cpp:17-56 | `POST /a HTTP/1.1` with `Content-Length: 5` and the body "hello" parses to an insertion of "hello" under "a" |
| RequestHandler.ScenarioLine | httpProcessingFunc.cpp:17-39 | `GET /a HTTP/1.1` and `DELETE /a HTTP/1.1` parse to their kind and the key "a" |
| RequestHandler.HelloResponse | requestHandler.cpp:32-37 | a GET that finds "hello" answers with `Content-length: 5` and the payload "hello\r\n" |
| RequestHandler.Scenario | threadPoolServer.cpp:135-140 | parsing and handling POST, GET, DELETE and GET of one key in turn, with the same request object, gives the empty 200, the 200 with "hello", the empty 200 and the 404 |

## Left out

- Threads and locks are left out: the store's read-write lock, the queue's three mutexes and its condition variable, and the atomic counters. Every operation is one atomic step.
- The store's concurrent-lookup promise is not modelled. It could not hold as written anyway, because `lookup` reorders `cacheList` under a read lock.
- TaskQueue.ThreadSafeQueue.Dequeue: the wait on an empty queue becomes the precondition that the queue is non-empty.
- Queue elements are of any type `T`, in place of the server's `Task` with its socket and arrival time.
- Sockets, `accept`, the per-connection read and write loop, the 4096-byte read buffer (a request longer than 4095 bytes is read in pieces) and the timing statistics are left out. The parser takes the buffer's content as a string, and `CString` stops it at the first NUL as the C string does.
- `main.cpp` is not part of this model: its option parsing, console loop and statistics printing are left out.
- Real files are modelled by a map from key to content. The path is `storagePath + "/" + key`, so two keys that name the same file, such as "x" and "./x", are distinct keys in the model. `initDir`, which wipes the directory at start-up, is left out.
- Keys that name a directory are not modelled as such. These are "" (from `GET /`), ".", ".." and keys containing "/". For such a key `readFile` (fileSystemIO.cpp:28-37) opens the directory, and the stream stays good, so it returns 0 with the value "". The source therefore answers `GET /` with a 200 and an empty body, where `HandleRequest` in the model gives a 404. `deleteFile` on a directory may fail, so for these keys `RemoveThenLookup` does not hold in the source. `writeFile` on such a path fails.
- KVStore.ThreadSafeKVStore.Insert: the model assumes the eviction write succeeds. The source ends the process when that write fails.
- KVStore.ThreadSafeKVStore.Lookup: the model assumes the eviction write succeeds, as for `Insert`. On a miss it hands back the empty string. That is the string `handleRequest` passes in, and the source leaves it untouched.
- KVStore.ThreadSafeKVStore.Remove: the `catch(...)` that returns -1 stands for allocation failure, which is not modelled. `Insert` is in the same position. Both always return 0.
- KVStore.ThreadSafeKVStore.CacheWriteBack: `failed`, a parameter, lists the keys whose file write fails. The model treats every failed write as a failure to open, which leaves the file as it was. `writeFile` (fileSystemIO.cpp:39-46) opens with `fstream::trunc` before writing, so a failure in `file << value` after a successful open leaves the file empty or partly written; that truncation is not modelled. The map's iteration order is left open; the result does not depend on it.
- KVStore.ThreadSafeKVStore.Destroy: `fatal` stands for the process exit on a failed write-back. Freeing the implementation object is not modelled.
- RequestHandler.Stats.constructor: the counters are unbounded naturals; wrap-around of the `unsigned long` atomics is not modelled.
- The doc comment on `handleRequest` says `STAT_NUM_*` keys are kept in the store, but the code never does this, so it is not modelled.
- The `default: exit(-1)` branch of `handleRequest` cannot be reached, because a request kind is always GET, POST or DELETE.
- HttpParser.ParseBody: an uncaught exception has its own outcome, `Threw`. It covers a `Content-Length` line that `std::stoi` rejects, for no digits or `int` overflow. It also covers a negative length, which as a `size_t` is more than a `std::string` can hold.
- Characters are Dafny characters rather than bytes. White space and letter case follow the "C" locale, with no other character sets.

## Findings

| source | as written | input that shows it | evidently intended | confidence | as-written member | corrected member |
|---|---|---|---|---|---|---|
| threadSafeQueue.hpp:31-43 | the destructor's loop stops when it reaches `tail` without deleting it, and afterwards only `head` is deleted | a queue holding one element: `tail` is that element's node, and it is never deleted | "Will delete all nodes": every node of the chain is deleted, the last one included | not executed | TaskQueue.DestroyLeaksLastNode | TaskQueue.DestroyAllLeavesNothing |

=== FILE: http_parser.dfy ===
/**
 * The request parser for the subset of HTTP/1.1 the server accepts: a request line
 * (method, request-target, version; section 3.1.1 of RFC 7230) and, for POST, a
 * `Content-Length` header (section 3.3.2 of RFC 7230), matched without regard to case,
 * followed by a body of that many characters.
 */
module HttpParser {
  import opened Wrappers
  import opened Text
  import opened InputStream

  datatype RequestType = GET | POST | DELETE

  /** A parsed request; `value` is meaningful only for POST. */
  datatype Request = Request(kind: RequestType, key: string, value: string)

  /**
   * What parsing ends with: a return code and the request as far as it was filled in, or
   * the exception that `std::stoi` (no digits, out of `int` range) or `std::string` (a
   * negative length) throws, which nothing catches.
   */
  datatype ParseOutcome = Returned(code: int, request: Request) | Threw

  /** The C string in the buffer: everything before the first NUL. */
  function CString(buffer: string): (s: string)
    ensures '\0' !in s
    ensures |s| <= |buffer| && s == buffer[..|s|]
    ensures |s| < |buffer| ==> buffer[|s|] == '\0'
    ensures '\0' !in buffer ==> s == buffer
  {
    if buffer == [] || buffer[0] == '\0' then [] else [buffer[0]] + CString(buffer[1..])
  }

  /** `strToLower`: lower-cases the string in place. */
  method StrToLower(str: array<char>)
    modifies str
    ensures str[..] == Lower(old(str[..]))
  {
    for i := 0 to str.Length
      invariant forall k :: 0 <= k < i ==> str[k] == LowerChar(old(str[k]))
      invariant forall k :: i <= k < str.Length ==> str[k] == old(str[k])
    {
      str[i] := LowerChar(str[i]);
    }
  }

  function MethodOf(token: string): (r: Option<RequestType>)
    ensures r == Some(GET) <==> token == "GET"
    ensures r == Some(POST) <==> token == "POST"
    ensures r == Some(DELETE) <==> token == "DELETE"
  {
    if token == "GET" then Some(GET)
    else if token == "POST" then Some(POST)
    else if token == "DELETE" then Some(DELETE)
    else None
  }

  /** The state after the header scan, and the rest of the `Content-Length` line if one was found. */
  datatype Scan = Scan(stream: Stream, token: string, lengthLine: Option<string>)

  /**
   * The first loop of the POST branch: read tokens, lower-casing each, until one is
   * `content-length:` (then read the rest of its line) or the stream is at its end.
   */
  function ScanHeaders(s: Stream, token: string): (r: Scan)
    requires s.Ok()
    ensures r.stream.Ok() && r.stream.text == s.text && s.pos <= r.stream.pos
    ensures r.lengthLine.None? ==> r.stream.eof && r.token != "content-length:"
    ensures r.lengthLine.Some? ==> r.lengthLine.value == r.token
    decreases |s.text| - s.pos
  {
    var e := ReadToken(s, token);
    var t := Lower(e.token);
    if t == "content-length:" then
      var g := GetLine(e.stream, t);
      Scan(g.stream, g.token, Some(g.token))
    else if e.stream.eof then Scan(e.stream, t, None)
    else ScanHeaders(e.stream, t)
  }

  /** The second loop of the POST branch: read lines up to an empty or "\r" line, or the end. */
  function SkipHeaderLines(s: Stream, token: string): (r: Extraction)
    requires s.Ok()
    ensures r.stream.Ok() && r.stream.text == s.text && s.pos <= r.stream.pos
    ensures r.token == "" || r.token == "\r" || r.stream.eof
    decreases |s.text| - s.pos
  {
    var g := GetLine(s, token);
    if g.token != "" && g.token != "\r" && !g.stream.eof then SkipHeaderLines(g.stream, g.token) else g
  }

  /**
   * `parseHTTP(buffer, request)`: the outcome, in terms of the stream operations. The
   * request's fields are overwritten one by one as they are parsed, so a failure keeps
   * the fields set before it; GET and DELETE never touch `value`.
   */
  function Parse(buffer: string, request: Request): (r: ParseOutcome)
    ensures r.Returned? ==> r.code in {0, -1, -2, -3}
    ensures r.Returned? && (r.code != 0 || r.request.kind != POST) ==> r.request.value == request.value
  {
    var e := ReadToken(Open(CString(buffer)), "");
    match MethodOf(e.token)
    case None => Returned(-1, request)
    case Some(kind) => ParseTarget(e, request.(kind := kind))
  }

  /** After the method: the request-target must start with '/', and the rest of it is the key. */
  function ParseTarget(e: Extraction, request: Request): (r: ParseOutcome)
    requires e.stream.Ok()
    ensures r.Returned? ==> r.code in {0, -2, -3} && r.request.kind == request.kind
    ensures r.Returned? && (r.code != 0 || r.request.kind != POST) ==> r.request.value == request.value
  {
    var e' := ReadToken(e.stream, e.token);
    if e'.token == [] || e'.token[0] != '/' then Returned(-2, request)
    else ParseVersion(e', request.(key := e'.token[1..]))
  }

  /** After the request-target: the version must be `HTTP/1.1`; only a POST reads further. */
  function ParseVersion(e: Extraction, request: Request): (r: ParseOutcome)
    requires e.stream.Ok()
    ensures r.Returned? ==> r.code in {0, -3} && r.request.kind == request.kind
    ensures r.Returned? && (r.code != 0 || r.request.kind != POST) ==> r.request == request
  {
    var e' := ReadToken(e.stream, e.token);
    if e'.token != "HTTP/1.1" then Returned(-3, request)
    else if request.kind != POST then Returned(0, request)
    else ParseBody(e', request)
  }

  /**
   * After a POST request line: the length from the `Content-Length` line (0 without one),
   * the remaining header lines, then that many characters of body. `std::stoi` throws on
   * a line without a number, and a negative length, converted to `size_t`, exceeds what a
   * `std::string` can hold.
   */
  function ParseBody(e: Extraction, request: Request): (r: ParseOutcome)
    requires e.stream.Ok()
    ensures r.Returned? ==> r.code == 0 && r.request == request.(value := r.request.value)
  {
    var scan := ScanHeaders(e.stream, e.token);
    var length := if scan.lengthLine.None? then Some(0) else StoI(scan.lengthLine.value);
    if length.None? then Threw
    else
      var skip := SkipHeaderLines(scan.stream, scan.token);
      if length.value < 0 then Threw
      else Returned(0, request.(value := ReadInto(skip.stream, length.value).token))
  }

  /** `parseHTTP`, reading the buffer through the stream. */
  method ParseHTTP(buffer: string, request: Request) returns (outcome: ParseOutcome)
    ensures outcome == Parse(buffer, request)
  {
    var req := request;
    var e1 := ReadToken(Open(CString(buffer)), "");
    if e1.token == "GET" {
      req := req.(kind := GET);
    } else if e1.token == "POST" {
      req := req.(kind := POST);
    } else if e1.token == "DELETE" {
      req := req.(kind := DELETE);
    } else {
      return Returned(-1, req);
    }
    assert Parse(buffer, request) == ParseTarget(e1, req);
    var e2 := ReadToken(e1.stream, e1.token);
    if e2.token == [] || e2.token[0] != '/' {
      return Returned(-2, req);
    }
    req := req.(key := e2.token[1..]);
    assert Parse(buffer, request) == ParseVersion(e2, req);
    var e3 := ReadToken(e2.stream, e2.token);
    if e3.token != "HTTP/1.1" {
      return Returned(-3, req);
    }
    if req.kind == POST {
      outcome := ReadBody(e3.stream, e3.token, req);
    } else {
      outcome := Returned(0, req);
    }
  }

  /**
   * The POST branch of `parseHTTP`: a loop over tokens up to the `Content-Length` line, a
   * loop over lines up to the blank one, then the body.
   */
  method ReadBody(stream: Stream, last: string, request: Request) returns (outcome: ParseOutcome)
    requires stream.Ok()
    ensures outcome == ParseBody(Extraction(stream, last), request)
  {
    var strm, token, length := ReadHeaders(stream, last);
    if length.None? {
      return Threw;
    }
    strm, token := SkipHeaders(strm, token);
    if length.value < 0 {
      return Threw;
    }
    var e := ReadInto(strm, length.value);
    outcome := Returned(0, request.(value := e.token));
  }

  /**
   * The first loop of the POST branch: each token is lower-cased in place and compared
   * with `content-length:`; on a match the rest of the line goes through `std::stoi`.
   * `None` is the exception `std::stoi` throws.
   */
  method ReadHeaders(stream: Stream, last: string) returns (strm: Stream, token: string, length: Option<int>)
    requires stream.Ok()
    ensures var scan := ScanHeaders(stream, last);
      && length == (if scan.lengthLine.None? then Some(0) else StoI(scan.lengthLine.value))
      && (length.Some? ==> strm == scan.stream && token == scan.token)
  {
    strm, token := stream, last;
    ghost var scanned := ScanHeaders(strm, token);
    length := Some(0);
    var done := false;
    while !done
      invariant strm.Ok()
      invariant !done ==> ScanHeaders(strm, token) == scanned && length == Some(0)
      invariant done ==> strm == scanned.stream && token == scanned.token
      invariant done ==> length == (if scanned.lengthLine.None? then Some(0) else StoI(scanned.lengthLine.value))
      decreases !done, |strm.text| - strm.pos
    {
      var e := ReadToken(strm, token);
      strm, token := e.stream, e.token;
      var buf := new char[|token|](i requires 0 <= i < |token| => token[i]);
      assert buf[..] == token;
      StrToLower(buf);
      token := buf[..];
      if token == "content-length:" {
        e := GetLine(strm, token);
        strm, token := e.stream, e.token;
        length := StoI(token);
        if length.None? {
          return;
        }
        done := true;
      } else if strm.eof {
        done := true;
      }
    }
  }

  /** The second loop of the POST branch: `getline` until an empty or "\r" line, or the end. */
  method SkipHeaders(stream: Stream, last: string) returns (strm: Stream, token: string)
    requires stream.Ok()
    ensures Extraction(strm, token) == SkipHeaderLines(stream, last)
  {
    strm, token := stream, last;
    ghost var skipped := SkipHeaderLines(strm, token);
    var stop := false;
    while !stop
      invariant strm.Ok()
      invariant !stop ==> SkipHeaderLines(strm, token) == skipped
      invariant stop ==> strm == skipped.stream && token == skipped.token
      decreases !stop, |strm.text| - strm.pos
    {
      var e := GetLine(strm, token);
      strm, token := e.stream, e.token;
      stop := token == "" || token == "\r" || strm.eof;
    }
  }

  // ---------------------------------------------------------------------------------------
  // Properties of the parser

  function MethodName(kind: RequestType): (name: string)
    ensures MethodOf(name) == Some(kind)
    ensures name != [] && NoSpace(name) && '\0' !in name
  {
    match kind
    case GET => "GET"
    case POST => "POST"
    case DELETE => "DELETE"
  }

  /** The text of a request line: method, request-target `/key`, and a version. */
  function RequestLine(kind: RequestType, key: string, version: string): string {
    MethodName(kind) + " /" + key + " " + version
  }

  /** A key as it can appear in a request-target: no white space and no NUL. */
  predicate ValidKey(key: string) {
    NoSpace(key) && '\0' !in key
  }

  /** A " /" followed by `key` holds the request-target `/key` from its second character on. */
  lemma TargetSlice(text: string, a: nat, b: nat, key: string)
    requires b == a + 2 + |key| && b <= |text|
    requires text[a..a + 2] == " /" && text[a + 2..b] == key
    ensures text[a + 1..b] == "/" + key
  {
    forall i | 0 <= i < |key| + 1 ensures text[a + 1 + i] == ("/" + key)[i] {
      if i == 0 {
        assert text[a + 1] == text[a..a + 2][1];
      } else {
        assert text[a + 1 + i] == text[a + 2..b][i - 1];
      }
    }
  }

  /** Where the method `m`, the request-target, the version and what follows sit in a request line's text. */
  lemma LinePieces(m: string, key: string, version: string, rest: string)
    ensures var text := m + " /" + key + " " + version + rest;
      var a, b := |m|, |m| + 2 + |key|;
      var n := b + 1 + |version|;
      && |text| == n + |rest|
      && text[0..a] == m && text[a] == ' ' && text[a + 1..b] == "/" + key
      && text[b] == ' ' && text[b + 1..n] == version
      && (rest != [] ==> text[n] == rest[0])
  {
    var w := m + " /";
    var z := w + key;
    var y := z + " ";
    var line := y + version;
    var text := line + rest;
    var a, b := |m|, |m| + 2 + |key|;
    Peel(text, 0, line, rest);
    Peel(text, 0, y, version);
    Peel(text, 0, z, " ");
    Peel(text, 0, w, key);
    Peel(text, 0, m, " /");
    assert text[b] == text[b..b + 1][0];
    assert text[a] == text[a..a + 2][0];
    TargetSlice(text, a, b, key);
    if rest != [] {
      assert text[|line|] == rest[0];
    }
  }

  /** Where the parts of a request line sit in its text. */
  lemma LineLayout(kind: RequestType, key: string, version: string, rest: string)
    requires ValidKey(key) && '\0' !in version && '\0' !in rest
    ensures var m := MethodName(kind);
      var line := RequestLine(kind, key, version);
      var text := line + rest;
      var a, b := |m|, |m| + 2 + |key|;
      && |line| == b + 1 + |version| && |text| == |line| + |rest| && '\0' !in text
      && text[0..a] == m && text[a] == ' ' && text[a + 1..b] == "/" + key
      && text[b] == ' ' && text[b + 1..|line|] == version
      && (rest != [] ==> text[|line|] == rest[0])
  {
    LinePieces(MethodName(kind), key, version, rest);
  }

  /** The method, the first token of a request line. */
  lemma MethodToken(kind: RequestType, key: string, version: string, rest: string)
    requires ValidKey(key) && '\0' !in version && '\0' !in rest
    ensures var text := RequestLine(kind, key, version) + rest;
      ReadToken(Open(text), "") == Extraction(Stream(text, |MethodName(kind)|, false, false), MethodName(kind))
  {
    var text := RequestLine(kind, key, version) + rest;
    LineLayout(kind, key, version, rest);
    assert AllSpace(text[|MethodName(kind)|..|MethodName(kind)| + 1]);
    ReadTokenAt(Open(text), "", 0, |MethodName(kind)|);
  }

  /** A key with a leading '/' still has no white space. */
  lemma TargetChars(key: string)
    requires NoSpace(key)
    ensures NoSpace("/" + key)
  {
    forall k | 0 < k < |"/" + key| ensures !IsSpace(("/" + key)[k]) {
      assert ("/" + key)[k] == key[k - 1];
    }
  }

  /** The request-target, the second token of a request line. */
  lemma TargetToken(kind: RequestType, key: string, version: string, rest: string)
    requires ValidKey(key) && '\0' !in version && '\0' !in rest
    ensures var text := RequestLine(kind, key, version) + rest;
      var a, b := |MethodName(kind)|, |MethodName(kind)| + 2 + |key|;
      ReadToken(Stream(text, a, false, false), MethodName(kind)) == Extraction(Stream(text, b, false, false), "/" + key)
  {
    var text := RequestLine(kind, key, version) + rest;
    var a, b := |MethodName(kind)|, |MethodName(kind)| + 2 + |key|;
    LineLayout(kind, key, version, rest);
    TargetChars(key);
    assert text[a..a + 1] == [text[a]] == " ";
    assert NoSpace(text[a + 1..b]);
    assert b < |text| && IsSpace(text[b]);
    ReadTokenAt(Stream(text, a, false, false), MethodName(kind), a + 1, b);
  }

  /** The version, the third token of a request line, followed by white space or the end. */
  lemma VersionToken(kind: RequestType, key: string, version: string, rest: string)
    requires ValidKey(key) && version != [] && NoSpace(version) && '\0' !in version
    requires '\0' !in rest && (rest == [] || IsSpace(rest[0]))
    ensures var text := RequestLine(kind, key, version) + rest;
      var b := |MethodName(kind)| + 2 + |key|;
      ReadToken(Stream(text, b, false, false), "/" + key)
        == Extraction(Stream(text, |RequestLine(kind, key, version)|, rest == [], false), version)
  {
    var text := RequestLine(kind, key, version) + rest;
    var b := |MethodName(kind)| + 2 + |key|;
    LineLayout(kind, key, version, rest);
    assert AllSpace(text[b..b + 1]);
    ReadTokenAt(Stream(text, b, false, false), "/" + key, b + 1, |RequestLine(kind, key, version)|);
  }

  /**
   * The method and the request-target of a request line are read and stored; what is
   * left is the version check on the third token.
   */
  lemma LineTokens(kind: RequestType, key: string, version: string, rest: string, request: Request)
    requires ValidKey(key) && version != [] && NoSpace(version) && '\0' !in version
    requires '\0' !in rest && (rest == [] || IsSpace(rest[0]))
    ensures var text := RequestLine(kind, key, version) + rest;
      var e2 := Extraction(Stream(text, |MethodName(kind)| + 2 + |key|, false, false), "/" + key);
      && Parse(text, request) == ParseVersion(e2, request.(kind := kind, key := key))
      && ReadToken(e2.stream, e2.token) == Extraction(Stream(text, |RequestLine(kind, key, version)|, rest == [], false), version)
  {
    var text := RequestLine(kind, key, version) + rest;
    LineLayout(kind, key, version, rest);
    MethodToken(kind, key, version, rest);
    TargetToken(kind, key, version, rest);
    VersionToken(kind, key, version, rest);
    var e1 := ReadToken(Open(CString(text)), "");
    assert Parse(text, request) == ParseTarget(e1, request.(kind := kind));
    assert ("/" + key)[1..] == key;
  }

  /** A well-formed request line stores its method and key; a POST then goes on to its headers. */
  lemma ParseLine(kind: RequestType, key: string, rest: string, request: Request)
    requires ValidKey(key) && '\0' !in rest && (rest == [] || IsSpace(rest[0]))
    ensures var line := RequestLine(kind, key, "HTTP/1.1");
      var r := request.(kind := kind, key := key);
      Parse(line + rest, request)
        == if kind == POST then ParseBody(Extraction(Stream(line + rest, |line|, rest == [], false), "HTTP/1.1"), r)
           else Returned(0, r)
  {
    LineTokens(kind, key, "HTTP/1.1", rest, request);
  }

  /**
   * A well-formed GET or DELETE request line parses to its method and key, whatever
   * follows it; the request's `value` is left as it was.
   */
  lemma ParseRequestLine(kind: RequestType, key: string, rest: string, request: Request)
    requires kind != POST
    requires ValidKey(key) && '\0' !in rest && (rest == [] || IsSpace(rest[0]))
    ensures Parse(RequestLine(kind, key, "HTTP/1.1") + rest, request) == Returned(0, request.(kind := kind, key := key))
  {
    ParseLine(kind, key, rest, request);
  }

  /** A request line whose third token is not `HTTP/1.1` is refused with -3, after the method and key are stored. */
  lemma ParseBadVersion(kind: RequestType, key: string, version: string, rest: string, request: Request)
    requires ValidKey(key) && NoSpace(version) && '\0' !in version && version != "HTTP/1.1"
    requires '\0' !in rest && (rest == [] || IsSpace(rest[0]))
    requires version == [] ==> AllSpace(rest)
    ensures Parse(RequestLine(kind, key, version) + rest, request) == Returned(-3, request.(kind := kind, key := key))
  {
    if version == [] {
      assert RequestLine(kind, key, version) + rest == MethodName(kind) + " /" + key + (" " + rest);
      ParseMissingVersion(kind, key, " " + rest, request);
    } else {
      LineTokens(kind, key, version, rest, request);
    }
  }

  /** White space holds no NUL. */
  lemma SpaceNoNul(ws: string)
    requires AllSpace(ws)
    ensures '\0' !in ws
  {
    forall k | 0 <= k < |ws| ensures ws[k] != '\0' {
      assert IsSpace(ws[k]);
    }
  }

  /**
   * A buffer whose C string is empty or only white space has no first token: `>>` fails and
   * leaves the token empty, which is no method, so the request is refused with -1.
   */
  lemma ParseBlank(buffer: string, request: Request)
    requires AllSpace(CString(buffer))
    ensures Parse(buffer, request) == Returned(-1, request)
  {
    var text := CString(buffer);
    assert text[0..] == text;
    ReadAtEnd(text, 0, "");
  }

  /**
   * A method with nothing but white space after it has no request-target: `>>` fails and
   * keeps the method, which does not start with '/', so the request is refused with -2.
   */
  lemma ParseMissingTarget(kind: RequestType, ws: string, request: Request)
    requires AllSpace(ws)
    ensures Parse(MethodName(kind) + ws, request) == Returned(-2, request.(kind := kind))
  {
    var m := MethodName(kind);
    var text := m + ws;
    var a := |m|;
    SpaceNoNul(ws);
    assert text[0..a] == m;
    if ws != [] {
      assert text[a] == ws[0];
    }
    ReadTokenAt(Open(text), "", 0, a);
    var e1 := Extraction(Stream(text, a, ws == [], false), m);
    assert Parse(text, request) == ParseTarget(e1, request.(kind := kind));
    if ws != [] {
      assert text[a..] == ws;
      ReadAtEnd(text, a, m);
    }
    assert m[0] != '/';
  }

  /** The method and then the next token are read from `method + " " + target + rest`. */
  lemma MethodThenTarget(kind: RequestType, target: string, rest: string, request: Request)
    requires target != [] && NoSpace(target)
    requires '\0' !in target && '\0' !in rest && (rest == [] || IsSpace(rest[0]))
    ensures var text := MethodName(kind) + " " + target + rest;
      var a := |MethodName(kind)|;
      && Parse(text, request) == ParseTarget(Extraction(Stream(text, a, false, false), MethodName(kind)), request.(kind := kind))
      && ReadToken(Stream(text, a, false, false), MethodName(kind)) == Extraction(Stream(text, a + 1 + |target|, rest == [], false), target)
  {
    var m := MethodName(kind);
    var text := m + " " + target + rest;
    var a, b := |m|, |m| + 1 + |target|;
    TargetLayout(m, target, rest);
    assert AllSpace(text[a..a + 1]);
    ReadTokenAt(Open(text), "", 0, a);
    var e1 := Extraction(Stream(text, a, false, false), m);
    assert Parse(text, request) == ParseTarget(e1, request.(kind := kind));
    ReadTokenAt(e1.stream, m, a + 1, b);
  }

  /** A method, a space and the request-target `/key`, spelled as a request line spells them. */
  lemma TargetSpelling(m: string, key: string, ws: string)
    ensures m + " " + ("/" + key) + ws == m + " /" + key + ws
  {
  }

  /** What follows a prefix is the rest of the text. */
  lemma SuffixOf(x: string, y: string)
    ensures (x + y)[|x|..] == y
  {
  }

  /** With only white space left after the request-target, the version check fails with -3. */
  lemma VersionMissing(text: string, b: nat, eof: bool, target: string, request: Request)
    requires b <= |text| && eof == (b == |text|) && AllSpace(text[b..]) && target != "HTTP/1.1"
    ensures ParseVersion(Extraction(Stream(text, b, eof, false), target), request) == Returned(-3, request)
  {
    if !eof {
      ReadAtEnd(text, b, target);
    }
  }

  /**
   * A method and a request-target with nothing but white space after them have no
   * version: `>>` fails and keeps the request-target, which is not `HTTP/1.1`, so the
   * request is refused with -3 after the method and key are stored.
   */
  lemma ParseMissingVersion(kind: RequestType, key: string, ws: string, request: Request)
    requires ValidKey(key) && AllSpace(ws)
    ensures Parse(MethodName(kind) + " /" + key + ws, request) == Returned(-3, request.(kind := kind, key := key))
  {
    var m := MethodName(kind);
    var target := "/" + key;
    var text := m + " " + target + ws;
    var b := |m| + 1 + |target|;
    TargetSpelling(m, key, ws);
    SpaceNoNul(ws);
    TargetChars(key);
    MethodThenTarget(kind, target, ws, request);
    assert target[1..] == key;
    SuffixOf(m + " " + target, ws);
    assert target[0] != "HTTP/1.1"[0];
    VersionMissing(text, b, ws == [], target, request.(kind := kind, key := key));
  }

  /**
   * A request line whose method is not GET, POST or DELETE is refused with -1, before
   * anything else is looked at; so is one with no first token at all (`word` empty).
   */
  lemma ParseUnknownMethod(ws: string, word: string, rest: string, request: Request)
    requires AllSpace(ws) && NoSpace(word)
    requires '\0' !in word && '\0' !in rest && (rest == [] || IsSpace(rest[0]))
    requires word != "GET" && word != "POST" && word != "DELETE"
    requires word == [] ==> AllSpace(rest)
    ensures Parse(ws + word + rest, request) == Returned(-1, request)
  {
    SpaceNoNul(ws);
    if word == [] {
      var text := ws + word + rest;
      assert '\0' !in text;
      assert AllSpace(text) by {
        forall k | 0 <= k < |text| ensures IsSpace(text[k]) {
          if k < |ws| { assert text[k] == ws[k]; } else { assert text[k] == rest[k - |ws|]; }
        }
      }
      ParseBlank(text, request);
      return;
    }
    var text := ws + word + rest;
    assert '\0' !in text;
    var a, b := |ws|, |ws| + |word|;
    forall k | 0 <= k < a ensures text[k] == ws[k] {}
    forall k | a <= k < b ensures text[k] == word[k - a] {}
    if b < |text| {
      assert text[b] == rest[0];
    }
    ReadTokenAt(Open(text), "", a, b);
    assert text[a..b] == word;
  }

  /** Where the method and the request-target sit in `m + " " + target + rest`. */
  lemma TargetLayout(m: string, target: string, rest: string)
    requires '\0' !in m && '\0' !in target && '\0' !in rest
    ensures var text := m + " " + target + rest;
      var a, b := |m|, |m| + 1 + |target|;
      && b <= |text| && '\0' !in text
      && text[0..a] == m && text[a] == ' ' && text[a + 1..b] == target
      && (b < |text| ==> text[b] == rest[0])
  {
    var text := m + " " + target + rest;
    var a, b := |m|, |m| + 1 + |target|;
    forall k | 0 <= k < a ensures text[k] == m[k] {}
    forall k | a + 1 <= k < b ensures text[k] == target[k - a - 1] {}
    if b < |text| {
      assert text[b] == rest[0];
    }
  }

  /**
   * A known method followed by a request-target that does not start with '/' is refused
   * with -2; so is one with no request-target at all (`target` empty).
   */
  lemma ParseBadTarget(kind: RequestType, target: string, rest: string, request: Request)
    requires NoSpace(target) && (target != [] ==> target[0] != '/')
    requires '\0' !in target && '\0' !in rest && (rest == [] || IsSpace(rest[0]))
    requires target == [] ==> AllSpace(rest)
    ensures Parse(MethodName(kind) + " " + target + rest, request) == Returned(-2, request.(kind := kind))
  {
    if target == [] {
      assert MethodName(kind) + " " + target + rest == MethodName(kind) + (" " + rest);
      ParseMissingTarget(kind, " " + rest, request);
    } else {
      MethodThenTarget(kind, target, rest, request);
    }
  }

  /** A POST request line with nothing after it parses with an empty body. */
  lemma ParsePostWithoutHeaders(key: string, request: Request)
    requires ValidKey(key)
    ensures Parse(RequestLine(POST, key, "HTTP/1.1"), request) == Returned(0, Request(POST, key, ""))
  {
    ParseLine(POST, key, "", request);
    assert RequestLine(POST, key, "HTTP/1.1") + "" == RequestLine(POST, key, "HTTP/1.1");
  }

  /** The text of a POST request whose `Content-Length` header, spelled `header`, declares the body's length. */
  function PostRequest(key: string, header: string, body: string): string {
    RequestLine(POST, key, "HTTP/1.1") + PostTail(header, body)
  }

  /** The part of a POST request after its request line. */
  function PostTail(header: string, body: string): string {
    "\r\n" + header + " " + NatToString(|body|) + "\r\n\r\n" + body
  }

  /** From position `p` on, `text` holds CRLF, the header name, a space, `digits` and CRLF. */
  ghost predicate LengthLineAt(text: string, p: nat, header: string, digits: string) {
    var h := p + 2 + |header|;
    var q := h + 1 + |digits|;
    && q + 1 < |text|
    && text[p..p + 2] == "\r\n" && text[p + 2..h] == header
    && text[h..q + 1] == " " + digits + "\r" && text[q + 1] == '\n'
  }

  /**
   * From position `p` on, `text` holds CRLF, the header name, a space, `digits`, CRLF, an
   * empty line, and `body`.
   */
  ghost predicate PostLayoutAt(text: string, p: nat, header: string, digits: string, body: string) {
    var h := p + 2 + |header|;
    var q := h + 1 + |digits|;
    && |text| == q + 4 + |body|
    && text[p..p + 2] == "\r\n" && text[p + 2..h] == header
    && text[h..q + 1] == " " + digits + "\r" && text[q + 1] == '\n'
    && text[q + 2] == '\r' && text[q + 3] == '\n' && text[q + 4..] == body
  }

  /** The layout of a POST request starts with its `Content-Length` line. */
  lemma PostLengthLine(text: string, p: nat, header: string, digits: string, body: string)
    requires PostLayoutAt(text, p, header, digits, body)
    ensures LengthLineAt(text, p, header, digits)
  {
  }

  /** Where the parts of a POST request sit in the text after its request line. */
  lemma PostTailLayout(header: string, digits: string, body: string)
    ensures PostLayoutAt("\r\n" + header + " " + digits + "\r\n\r\n" + body, 0, header, digits, body)
  {
    var rest := "\r\n" + header + " " + digits + "\r\n\r\n" + body;
    var h := 2 + |header|;
    var q := h + 1 + |digits|;
    var u := "\r\n" + header + " " + digits;
    assert rest == u + "\r\n\r\n" + body;
    assert rest[0..2] == u[..2] == "\r\n";
    assert rest[2..h] == u[2..h] == header;
    assert rest[h..q + 1] == " " + digits + "\r" by {
      assert rest[h..q] == u[h..q] == " " + digits;
      assert rest[q] == '\r';
      assert rest[h..q + 1] == rest[h..q] + [rest[q]];
    }
    assert rest[q + 4..] == body;
  }

  /** A layout that holds from the start of `rest` holds after any text put in front of it. */
  lemma PostLayoutShift(line: string, rest: string, header: string, digits: string, body: string)
    requires PostLayoutAt(rest, 0, header, digits, body)
    ensures PostLayoutAt(line + rest, |line|, header, digits, body)
  {
    var text := line + rest;
    var p := |line|;
    var h := 2 + |header|;
    var q := h + 1 + |digits|;
    assert text[p..] == rest;
    assert text[p..p + 2] == rest[..2] by {
      assert text[p..p + 2] == text[p..][..2];
    }
    assert text[p + 2..p + h] == rest[2..h] by {
      assert text[p + 2..p + h] == text[p..][2..h];
    }
    assert text[p + h..p + q + 1] == rest[h..q + 1] by {
      assert text[p + h..p + q + 1] == text[p..][h..q + 1];
    }
    assert text[p + q + 1] == rest[q + 1] && text[p + q + 2] == rest[q + 2] && text[p + q + 3] == rest[q + 3];
    assert text[p + q + 4..] == rest[q + 4..] by {
      assert text[p + q + 4..] == text[p..][q + 4..];
    }
  }

  /** Where the parts of a POST request sit in its text, after the request line. */
  lemma PostLayout(key: string, header: string, body: string)
    ensures PostLayoutAt(PostRequest(key, header, body), |RequestLine(POST, key, "HTTP/1.1")|, header, NatToString(|body|), body)
  {
    PostTailLayout(header, NatToString(|body|), body);
    PostLayoutShift(RequestLine(POST, key, "HTTP/1.1"), PostTail(header, body), header, NatToString(|body|), body);
  }

  /** Proof helper: `content-length:` has no white space and no NUL. */
  lemma ContentLengthName()
    ensures NoSpace("content-length:") && '\0' !in "content-length:"
  {
  }

  /** A header name that lower-cases to `content-length:` has no white space and no NUL. */
  lemma ContentLengthChars(header: string)
    requires Lower(header) == "content-length:"
    ensures NoSpace(header) && '\0' !in header
  {
    ContentLengthName();
    LowerKeepsClasses(header);
  }

  /** The header name of a POST request is its next token, and the rest of its line follows. */
  lemma PostHeaderTokens(text: string, p: nat, header: string, digits: string, name: string)
    requires LengthLineAt(text, p, header, digits) && IsDecimal(digits)
    requires header != [] && NoSpace(header)
    ensures var h := p + 2 + |header|;
      var line := " " + digits + "\r";
      && ReadToken(Stream(text, p, false, false), "HTTP/1.1") == Extraction(Stream(text, h, false, false), header)
      && GetLine(Stream(text, h, false, false), name) == Extraction(Stream(text, h + |line| + 1, false, false), line)
  {
    var h := p + 2 + |header|;
    var q := h + 1 + |digits|;
    assert AllSpace(text[p..p + 2]);
    assert text[h] == text[h..q + 1][0];
    ReadTokenAt(Stream(text, p, false, false), "HTTP/1.1", p + 2, h);
    assert '\n' !in text[h..q + 1] by {
      forall k | 0 <= k < |digits| ensures digits[k] != '\n' {
        assert IsDigit(digits[k]);
      }
    }
    GetLineAt(Stream(text, h, false, false), name, q + 1);
  }

  /** The header scan stops at the `Content-Length` line, whatever the case of its name. */
  lemma PostScan(text: string, p: nat, header: string, digits: string)
    requires LengthLineAt(text, p, header, digits) && IsDecimal(digits)
    requires Lower(header) == "content-length:"
    ensures var line := " " + digits + "\r";
      var q := p + 2 + |header| + |line|;
      ScanHeaders(Stream(text, p, false, false), "HTTP/1.1") == Scan(Stream(text, q + 1, false, false), line, Some(line))
  {
    ContentLengthChars(header);
    PostHeaderTokens(text, p, header, digits, Lower(header));
  }

  /** After the `Content-Length` line, the next line is the blank one, and the body follows it. */
  lemma PostSkip(text: string, p: nat, header: string, digits: string, body: string)
    requires PostLayoutAt(text, p, header, digits, body)
    ensures var line := " " + digits + "\r";
      var q := p + 2 + |header| + |line|;
      SkipHeaderLines(Stream(text, q + 1, false, false), line) == Extraction(Stream(text, q + 3, false, false), "\r")
  {
    var q := p + 2 + |header| + 1 + |digits|;
    assert text[q + 2..q + 3] == "\r";
    GetLineAt(Stream(text, q + 2, false, false), " " + digits + "\r", q + 3);
  }

  /** The text after a POST request line holds no NUL when its header name and body hold none. */
  lemma PostTailChars(header: string, body: string)
    requires '\0' !in header && '\0' !in body
    ensures '\0' !in PostTail(header, body) && IsSpace(PostTail(header, body)[0])
  {
    var digits := NatToString(|body|);
    forall k | 0 <= k < |digits| ensures digits[k] != '\0' {
      assert IsDigit(digits[k]);
    }
  }

  /** Reading as many characters as the body holds, from where it starts, yields the body. */
  lemma PostBodyRead(text: string, p: nat, header: string, digits: string, body: string)
    requires PostLayoutAt(text, p, header, digits, body)
    ensures var q := p + 2 + |header| + 1 + |digits|;
      ReadInto(Stream(text, q + 4, false, false), |body|).token == body
  {
    var q := p + 2 + |header| + 1 + |digits|;
    assert text[q + 4..q + 4 + |body|] == body;
  }

  /** In the layout of a POST request, the second loop ends just after the blank line, where the body starts. */
  lemma PostSkipAt(text: string, p: nat, header: string, digits: string, body: string, m: nat, b: nat)
    requires PostLayoutAt(text, p, header, digits, body)
    requires m == p + 2 + |header| + 1 + |digits| + 2 && b == m + 2
    ensures b + |body| <= |text| && text[b..b + |body|] == body
    ensures SkipHeaderLines(Stream(text, m, false, false), " " + digits + "\r") == Extraction(Stream(text, b, false, false), "\r")
  {
    PostSkip(text, p, header, digits, body);
  }

  /** After the request line of a POST request, the headers yield its length and the body is read in full. */
  lemma PostBody(text: string, p: nat, header: string, digits: string, body: string, request: Request)
    requires PostLayoutAt(text, p, header, digits, body) && StoI(" " + digits + "\r") == Some(|body|)
    requires var line := " " + digits + "\r";
      ScanHeaders(Stream(text, p, false, false), "HTTP/1.1")
        == Scan(Stream(text, p + 2 + |header| + |line| + 1, false, false), line, Some(line))
    ensures ParseBody(Extraction(Stream(text, p, false, false), "HTTP/1.1"), request) == Returned(0, request.(value := body))
  {
    var m := p + 2 + |header| + 1 + |digits| + 2;
    PostSkipAt(text, p, header, digits, body, m, m + 2);
    BodyFrom(text, p, m, m + 2, " " + digits + "\r", "\r", body, request);
  }

  /** A POST body whose length line and body stand at `p` is read in full from there. */
  lemma PostAt(text: string, p: nat, header: string, body: string, request: Request)
    requires PostLayoutAt(text, p, header, NatToString(|body|), body)
    requires |body| <= IntMax && Lower(header) == "content-length:"
    ensures ParseBody(Extraction(Stream(text, p, false, false), "HTTP/1.1"), request) == Returned(0, request.(value := body))
  {
    var digits := NatToString(|body|);
    StoINatToString(" ", |body|, "\r");
    PostLengthLine(text, p, header, digits, body);
    PostScan(text, p, header, digits);
    PostBody(text, p, header, digits, body, request);
  }

  /** What follows the header scan depends on the stream only through the scan's outcome. */
  lemma ParseBodyByScan(e1: Extraction, e2: Extraction, request: Request)
    requires e1.stream.Ok() && e2.stream.Ok()
    requires ScanHeaders(e1.stream, e1.token) == ScanHeaders(e2.stream, e2.token)
    ensures ParseBody(e1, request) == ParseBody(e2, request)
  {
  }

  /** The POST request built from a key, a length header and a body, after its request line. */
  lemma PostAfterLine(key: string, header: string, body: string, request: Request)
    requires |body| <= IntMax && Lower(header) == "content-length:"
    ensures var text := PostRequest(key, header, body);
      ParseBody(Extraction(Stream(text, |RequestLine(POST, key, "HTTP/1.1")|, false, false), "HTTP/1.1"), request)
        == Returned(0, request.(value := body))
  {
    PostLayout(key, header, body);
    PostAt(PostRequest(key, header, body), |RequestLine(POST, key, "HTTP/1.1")|, header, body, request);
  }

  /**
   * A POST request with a `Content-Length` header, in any case, as its first header parses
   * to its key and exactly its body.
   */
  lemma ParsePost(key: string, header: string, body: string, request: Request)
    requires ValidKey(key) && '\0' !in body && |body| <= IntMax
    requires Lower(header) == "content-length:"
    ensures Parse(PostRequest(key, header, body), request) == Returned(0, Request(POST, key, body))
  {
    ContentLengthChars(header);
    PostTailChars(header, body);
    ParseLine(POST, key, PostTail(header, body), request);
    PostAfterLine(key, header, body, request.(kind := POST, key := key));
  }

  // ---------------------------------------------------------------------------------------
  // Other header lines

  /** A word of the header section with the white space before it. */
  datatype Field = Field(sep: string, word: string)

  /** A field the header scan passes over: white space, then a word that does not lower-case to `content-length:`. */
  predicate FieldOk(f: Field) {
    && f.sep != [] && AllSpace(f.sep)
    && f.word != [] && NoSpace(f.word) && '\0' !in f.word
    && Lower(f.word) != "content-length:"
  }

  predicate FieldsOk(fs: seq<Field>) {
    forall i :: 0 <= i < |fs| ==> FieldOk(fs[i])
  }

  /** The text of a run of fields, such as the lines `Host: example.com` and `Accept: text/plain`. */
  function Fields(fs: seq<Field>): string {
    if fs == [] then [] else fs[0].sep + fs[0].word + Fields(fs[1..])
  }

  /** The token the scan holds after passing the fields, when it held `token` before them. */
  function LastToken(fs: seq<Field>, token: string): string {
    if fs == [] then token else LastToken(fs[1..], Lower(fs[0].word))
  }

  /** The text of fields holds no NUL and starts with white space. */
  lemma {:induction false} FieldsChars(fs: seq<Field>)
    requires FieldsOk(fs)
    ensures '\0' !in Fields(fs)
    ensures fs != [] ==> IsSpace(Fields(fs)[0])
    decreases |fs|
  {
    if fs != [] {
      var f := fs[0];
      assert FieldOk(f) && FieldsOk(fs[1..]);
      FieldsChars(fs[1..]);
      assert '\0' !in f.sep by {
        forall k | 0 <= k < |f.sep| ensures f.sep[k] != '\0' {
          assert IsSpace(f.sep[k]);
        }
      }
      assert Fields(fs) == f.sep + f.word + Fields(fs[1..]);
      assert Fields(fs)[0] == f.sep[0];
    }
  }

  /** A run of characters inside `text` gives the same pieces as the string it equals. */
  lemma SliceOf(text: string, p: nat, whole: string, a: nat, b: nat)
    requires p + |whole| <= |text| && text[p..p + |whole|] == whole && a <= b <= |whole|
    ensures text[p + a..p + b] == whole[a..b]
  {
    forall k | 0 <= k < b - a ensures text[p + a..p + b][k] == whole[a..b][k] {
      assert text[p + a + k] == text[p..p + |whole|][a + k];
    }
  }

  /**
   * One step of the header scan: a token that does not lower-case to `content-length:`,
   * read before the end of the text, is passed over, and the scan goes on from after it.
   */
  lemma ScanStep(s: Stream, token: string, next: Stream, word: string)
    requires s.Ok() && ReadToken(s, token) == Extraction(next, word)
    requires Lower(word) != "content-length:" && !next.eof
    ensures ScanHeaders(s, token) == ScanHeaders(next, Lower(word))
  {
  }

  /** While a token lies ahead, the scan does not depend on the token it held before. */
  lemma TokenIrrelevant(text: string, q: nat, k: nat, t1: string, t2: string)
    requires q <= k < |text| && !IsSpace(text[k])
    ensures ScanHeaders(Stream(text, q, false, false), t1) == ScanHeaders(Stream(text, q, false, false), t2)
  {
    assert ReadToken(Stream(text, q, false, false), t1) == ReadToken(Stream(text, q, false, false), t2);
  }

  /** The text after one field's word holds the fields that follow it. */
  lemma FieldSlice(text: string, p: nat, f: Field, rest: string)
    requires var whole := f.sep + f.word + rest;
      p + |whole| <= |text| && text[p..p + |whole|] == whole
    ensures var j := p + |f.sep| + |f.word|;
      text[j..j + |rest|] == rest
  {
    var whole := f.sep + f.word + rest;
    SliceOf(text, p, whole, |f.sep| + |f.word|, |whole|);
    assert whole[|f.sep| + |f.word|..] == rest;
  }

  /** Reading one field: the token is its word, read before the end of the text. */
  lemma FieldRead(text: string, p: nat, f: Field, rest: string, token: string)
    requires FieldOk(f) && (rest != [] ==> IsSpace(rest[0]))
    requires var whole := f.sep + f.word + rest;
      p + |whole| < |text| && text[p..p + |whole|] == whole && IsSpace(text[p + |whole|])
    ensures var j := p + |f.sep| + |f.word|;
      ReadToken(Stream(text, p, false, false), token) == Extraction(Stream(text, j, false, false), f.word)
  {
    var whole := f.sep + f.word + rest;
    var i := p + |f.sep|;
    var j := i + |f.word|;
    SliceOf(text, p, whole, 0, |f.sep|);
    assert whole[0..|f.sep|] == f.sep;
    SliceOf(text, p, whole, |f.sep|, |f.sep| + |f.word|);
    assert whole[|f.sep|..|f.sep| + |f.word|] == f.word;
    FieldSlice(text, p, f, rest);
    if rest != [] {
      assert text[j] == text[j..j + |rest|][0];
    }
    assert text[i..j] == f.word && j < |text|;
    ReadTokenAt(Stream(text, p, false, false), token, i, j);
    assert Stream(text, j, j == |text|, false) == Stream(text, j, false, false);
  }

  /** The header scan passes over one field and goes on from after its word, holding that word. */
  lemma FieldStep(text: string, p: nat, f: Field, rest: string, j: nat, token: string)
    requires FieldOk(f) && (rest != [] ==> IsSpace(rest[0]))
    requires var whole := f.sep + f.word + rest;
      p + |whole| < |text| && text[p..p + |whole|] == whole && IsSpace(text[p + |whole|])
    requires j == p + |f.sep| + |f.word|
    ensures ScanHeaders(Stream(text, p, false, false), token) == ScanHeaders(Stream(text, j, false, false), Lower(f.word))
  {
    FieldRead(text, p, f, rest, token);
    ScanStep(Stream(text, p, false, false), token, Stream(text, j, false, false), f.word);
  }

  /** Two stretches of the header scan, one after the other, make one. */
  lemma ScanChain(text: string, p: nat, j: nat, q: nat, t1: string, t2: string, t3: string)
    requires p <= j <= q <= |text|
    requires ScanHeaders(Stream(text, p, false, false), t1) == ScanHeaders(Stream(text, j, false, false), t2)
    requires ScanHeaders(Stream(text, j, false, false), t2) == ScanHeaders(Stream(text, q, false, false), t3)
    ensures ScanHeaders(Stream(text, p, false, false), t1) == ScanHeaders(Stream(text, q, false, false), t3)
  {
  }

  /** The header scan passes over a run of fields ending at `q`, each word in turn. */
  lemma {:induction false} ScanFields(text: string, p: nat, fs: seq<Field>, q: nat, token: string)
    requires FieldsOk(fs) && q == p + |Fields(fs)| && q < |text|
    requires text[p..q] == Fields(fs) && IsSpace(text[q])
    ensures ScanHeaders(Stream(text, p, false, false), token) == ScanHeaders(Stream(text, q, false, false), LastToken(fs, token))
    decreases |fs|
  {
    if fs != [] {
      var f := fs[0];
      var rest := Fields(fs[1..]);
      assert FieldOk(f) && FieldsOk(fs[1..]);
      assert Fields(fs) == f.sep + f.word + rest;
      var j := p + |f.sep| + |f.word|;
      assert j + |rest| == q;
      assert LastToken(fs, token) == LastToken(fs[1..], Lower(f.word));
      FieldSlice(text, p, f, rest);
      ScanFields(text, j, fs[1..], q, Lower(f.word));
      FieldsChars(fs[1..]);
      FieldStep(text, p, f, rest, j, token);
      ScanChain(text, p, j, q, token, Lower(f.word), LastToken(fs[1..], Lower(f.word)));
    }
  }

  /** No token the scan holds after passing fields lower-cases to `content-length:`. */
  lemma {:induction false} LastTokenName(fs: seq<Field>, token: string)
    requires FieldsOk(fs) && Lower(token) != "content-length:"
    ensures Lower(LastToken(fs, token)) != "content-length:"
    decreases |fs|
  {
    if fs != [] {
      assert FieldOk(fs[0]) && FieldsOk(fs[1..]);
      LowerIdempotent(fs[0].word);
      LastTokenName(fs[1..], Lower(fs[0].word));
    }
  }

  /** The text of fields, then anything, put after the request line, keeps the fields and what follows where they were. */
  lemma FieldsAfterLine(line: string, fs: seq<Field>, tail: string)
    ensures var text := line + Fields(fs) + tail;
      text[|line|..|line| + |Fields(fs)|] == Fields(fs) && text[|line| + |Fields(fs)|..] == tail
  {
    var text := line + Fields(fs) + tail;
    assert text == line + (Fields(fs) + tail);
  }

  /**
   * The header scan passes over other header lines to the next token after them, as if
   * they were not there.
   */
  lemma FieldsThenToken(text: string, a: nat, fs: seq<Field>, q: nat, k: nat, token: string)
    requires FieldsOk(fs) && q == a + |Fields(fs)| && q + k < |text|
    requires text[a..q] == Fields(fs) && IsSpace(text[q]) && !IsSpace(text[q + k])
    ensures ScanHeaders(Stream(text, a, false, false), token) == ScanHeaders(Stream(text, q, false, false), token)
  {
    ScanFields(text, a, fs, q, token);
    TokenIrrelevant(text, q, q + k, LastToken(fs, token), token);
  }

  /** Fields before white space that holds no NUL: together they hold no NUL and start with white space. */
  lemma FieldsBefore(fs: seq<Field>, tail: string)
    requires FieldsOk(fs) && '\0' !in tail && tail != [] && IsSpace(tail[0])
    ensures '\0' !in Fields(fs) + tail && IsSpace((Fields(fs) + tail)[0])
    ensures forall line :: line + Fields(fs) + tail == line + (Fields(fs) + tail)
  {
    FieldsChars(fs);
  }

  /** The `Content-Length` line starts with white space, and its name, two characters on, does not. */
  lemma LengthLineStart(text: string, p: nat, header: string, digits: string)
    requires LengthLineAt(text, p, header, digits) && Lower(header) == "content-length:"
    ensures p + 2 < |text| && IsSpace(text[p]) && !IsSpace(text[p + 2])
  {
    ContentLengthChars(header);
    assert text[p] == text[p..p + 2][0];
    assert text[p + 2] == text[p + 2..p + 2 + |header|][0];
  }

  /** Where the fields and the parts of the POST tail sit in the text of the request. */
  lemma FieldsPostLayout(text: string, line: string, fs: seq<Field>, header: string, body: string, p: nat)
    requires text == line + Fields(fs) + PostTail(header, body) && p == |line| + |Fields(fs)|
    requires Lower(header) == "content-length:"
    ensures PostLayoutAt(text, p, header, NatToString(|body|), body)
    ensures p + 2 < |text| && text[|line|..p] == Fields(fs) && IsSpace(text[p]) && !IsSpace(text[p + 2])
  {
    var tail := PostTail(header, body);
    var digits := NatToString(|body|);
    PostTailLayout(header, digits, body);
    PostLayoutShift(line + Fields(fs), tail, header, digits, body);
    FieldsAfterLine(line, fs, tail);
    PostLengthLine(text, p, header, digits, body);
    LengthLineStart(text, p, header, digits);
  }

  /**
   * After a request line, other header lines and then a `Content-Length` line: the header
   * scan passes over the other lines, and the body is read with the declared length.
   */
  lemma BodyAfterFields(text: string, line: string, fs: seq<Field>, header: string, body: string, request: Request)
    requires text == line + Fields(fs) + PostTail(header, body)
    requires FieldsOk(fs) && |body| <= IntMax && Lower(header) == "content-length:"
    ensures ParseBody(Extraction(Stream(text, |line|, false, false), "HTTP/1.1"), request) == Returned(0, request.(value := body))
  {
    var p := |line| + |Fields(fs)|;
    FieldsPostLayout(text, line, fs, header, body, p);
    FieldsThenToken(text, |line|, fs, p, 2, "HTTP/1.1");
    PostAt(text, p, header, body, request);
    ParseBodyByScan(Extraction(Stream(text, |line|, false, false), "HTTP/1.1"), Extraction(Stream(text, p, false, false), "HTTP/1.1"), request);
  }

  /**
   * A POST request whose `Content-Length` header, in any case, follows other header lines
   * parses to its key and exactly its body: the first `content-length:` token supplies the
   * length, wherever it stands.
   */
  lemma ParsePostAfterFields(key: string, fs: seq<Field>, header: string, body: string, request: Request)
    requires ValidKey(key) && FieldsOk(fs) && '\0' !in body && |body| <= IntMax
    requires Lower(header) == "content-length:"
    ensures Parse(RequestLine(POST, key, "HTTP/1.1") + Fields(fs) + PostTail(header, body), request)
      == Returned(0, Request(POST, key, body))
  {
    var line := RequestLine(POST, key, "HTTP/1.1");
    var tail := PostTail(header, body);
    ContentLengthChars(header);
    PostTailChars(header, body);
    FieldsBefore(fs, tail);
    ParseLine(POST, key, Fields(fs) + tail, request);
    BodyAfterFields(line + Fields(fs) + tail, line, fs, header, body, request.(kind := POST, key := key));
  }

  /** `HTTP/1.1` does not lower-case to `content-length:`. */
  lemma VersionName()
    ensures Lower("HTTP/1.1") != "content-length:"
  {
    assert Lower("HTTP/1.1")[0] == LowerChar('H') == 'h';
    assert "content-length:"[0] == 'c';
  }

  /** With only white space left, `>>` fails at the end and keeps the token it held. */
  lemma ReadAtEnd(text: string, p: nat, token: string)
    requires p <= |text| && AllSpace(text[p..])
    ensures ReadToken(Stream(text, p, false, false), token) == Extraction(Stream(text, |text|, true, true), token)
  {
    SkipSpaceTo(text, p, |text|);
  }

  /** With only white space left, the header scan ends there without a length line. */
  lemma ScanAtEnd(text: string, p: nat, token: string)
    requires p <= |text| && AllSpace(text[p..]) && Lower(token) != "content-length:"
    ensures ScanHeaders(Stream(text, p, false, false), token) == Scan(Stream(text, |text|, true, true), Lower(token), None)
  {
    ReadAtEnd(text, p, token);
  }

  /**
   * Past the last header, with only white space left: the scan ends without a length
   * line, the length is 0 and the body is empty.
   */
  lemma EndAt(text: string, p: nat, token: string, request: Request)
    requires p < |text| && AllSpace(text[p..]) && Lower(token) != "content-length:"
    ensures ParseBody(Extraction(Stream(text, p, false, false), token), request) == Returned(0, request.(value := ""))
  {
    var ended := Stream(text, |text|, true, true);
    ScanAtEnd(text, p, token);
    assert SkipHeaderLines(ended, Lower(token)) == Extraction(ended, Lower(token));
  }

  /**
   * After a request line and header lines that end in white space with no
   * `Content-Length` among them: the length is 0 and the body is empty.
   */
  lemma BodyWithoutLength(text: string, line: string, fs: seq<Field>, trail: string, request: Request)
    requires text == line + Fields(fs) + trail
    requires FieldsOk(fs) && trail != [] && AllSpace(trail)
    ensures ParseBody(Extraction(Stream(text, |line|, false, false), "HTTP/1.1"), request) == Returned(0, request.(value := ""))
  {
    var p := |line| + |Fields(fs)|;
    FieldsAfterLine(line, fs, trail);
    var t := LastToken(fs, "HTTP/1.1");
    ScanFields(text, |line|, fs, p, "HTTP/1.1");
    VersionName();
    LastTokenName(fs, "HTTP/1.1");
    EndAt(text, p, t, request);
    ParseBodyByScan(Extraction(Stream(text, |line|, false, false), "HTTP/1.1"), Extraction(Stream(text, p, false, false), t), request);
  }

  /**
   * A POST request with header lines but no `Content-Length` header, ending in white
   * space, has length 0: it parses to its key and an empty body.
   */
  lemma ParsePostWithoutLength(key: string, fs: seq<Field>, trail: string, request: Request)
    requires ValidKey(key) && FieldsOk(fs) && trail != [] && AllSpace(trail)
    ensures Parse(RequestLine(POST, key, "HTTP/1.1") + Fields(fs) + trail, request) == Returned(0, Request(POST, key, ""))
  {
    var line := RequestLine(POST, key, "HTTP/1.1");
    assert '\0' !in trail by {
      forall k | 0 <= k < |trail| ensures trail[k] != '\0' {
        assert IsSpace(trail[k]);
      }
    }
    FieldsBefore(fs, trail);
    ParseLine(POST, key, Fields(fs) + trail, request);
    BodyWithoutLength(line + Fields(fs) + trail, line, fs, trail, request.(kind := POST, key := key));
  }

  // ---------------------------------------------------------------------------------------
  // Header lines after the length

  /** A header line the second loop passes over: neither empty nor "\r", with no line break and no NUL. */
  predicate LineOk(l: string) {
    l != "" && l != "\r" && '\n' !in l && '\0' !in l
  }

  predicate LinesOk(ls: seq<string>) {
    forall i :: 0 <= i < |ls| ==> LineOk(ls[i])
  }

  /** The text of a run of lines, each ended by "\n" (a line may end in "\r" before it). */
  function Lines(ls: seq<string>): string {
    if ls == [] then "" else ls[0] + "\n" + Lines(ls[1..])
  }

  /** A blank line ends the header section: "\r\n", or a bare "\n". */
  predicate BlankLine(blank: string) {
    blank == "" || blank == "\r"
  }

  /**
   * The part of a POST request after its request line, when other header lines follow its
   * `Content-Length` line: these lines, then the blank line, then the body.
   */
  function PostTailWithLines(header: string, ls: seq<string>, blank: string, body: string): string {
    "\r\n" + header + " " + NatToString(|body|) + "\r\n" + Lines(ls) + blank + "\n" + body
  }

  /**
   * From position `p` on, `text` holds the `Content-Length` line, the lines `ls`, the blank
   * line and `body`.
   */
  ghost predicate LinesLayoutAt(text: string, p: nat, header: string, digits: string, ls: seq<string>, blank: string, body: string) {
    var m := p + 2 + |header| + 1 + |digits| + 2;
    var e := m + |Lines(ls)|;
    var b := e + |blank| + 1;
    && LengthLineAt(text, p, header, digits)
    && |text| == b + |body|
    && text[m..e] == Lines(ls) && text[e..b] == blank + "\n" && text[b..] == body
  }

  /** A run of characters inside `text` that equals `x + y` holds `x`, then `y`. */
  lemma Peel(text: string, p: nat, x: string, y: string)
    requires p + |x| + |y| <= |text| && text[p..p + |x| + |y|] == x + y
    ensures text[p..p + |x|] == x && text[p + |x|..p + |x| + |y|] == y
  {
    SliceOf(text, p, x + y, 0, |x|);
    SliceOf(text, p, x + y, |x|, |x| + |y|);
    assert (x + y)[..|x|] == x && (x + y)[|x|..] == y;
  }

  /** A text that holds the `Content-Length` line from `p` on, then `rest`. */
  lemma LengthLineLayout(text: string, p: nat, header: string, digits: string, rest: string)
    requires p <= |text| && text[p..] == "\r\n" + header + " " + digits + "\r\n" + rest
    ensures LengthLineAt(text, p, header, digits)
    ensures p + 2 + |header| + 1 + |digits| + 2 <= |text| && text[p + 2 + |header| + 1 + |digits| + 2..] == rest
  {
    var h := p + 2 + |header|;
    var q := h + 1 + |digits|;
    var r3 := "\n" + rest;
    var r2 := (" " + digits + "\r") + r3;
    var r1 := header + r2;
    assert text[p..] == "\r\n" + r1;
    assert text[p..p + 2 + |r1|] == "\r\n" + r1;
    Peel(text, p, "\r\n", r1);
    Peel(text, p + 2, header, r2);
    Peel(text, h, " " + digits + "\r", r3);
    Peel(text, q + 1, "\n", rest);
    assert text[q + 1] == text[q + 1..q + 2][0];
  }

  /** A text that holds the lines, the blank line and the body from `m` on. */
  lemma LinesRest(text: string, m: nat, ls: seq<string>, blank: string, body: string)
    requires m <= |text| && text[m..] == Lines(ls) + blank + "\n" + body
    ensures var e := m + |Lines(ls)|;
      && |text| == e + |blank| + 1 + |body|
      && text[m..e] == Lines(ls) && text[e..e + |blank| + 1] == blank + "\n" && text[e + |blank| + 1..] == body
  {
    var e := m + |Lines(ls)|;
    assert text[m..] == Lines(ls) + ((blank + "\n") + body);
    assert text[m..m + |Lines(ls)| + |(blank + "\n") + body|] == Lines(ls) + ((blank + "\n") + body);
    Peel(text, m, Lines(ls), (blank + "\n") + body);
    Peel(text, e, blank + "\n", body);
  }

  /** Where the parts of the tail sit in a text that holds it from `p` on. */
  lemma LinesLayout(text: string, p: nat, header: string, digits: string, ls: seq<string>, blank: string, body: string)
    requires p <= |text| && text[p..] == "\r\n" + header + " " + digits + "\r\n" + Lines(ls) + blank + "\n" + body
    ensures LinesLayoutAt(text, p, header, digits, ls, blank, body)
  {
    var rest := Lines(ls) + blank + "\n" + body;
    assert text[p..] == "\r\n" + header + " " + digits + "\r\n" + rest;
    LengthLineLayout(text, p, header, digits, rest);
    LinesRest(text, p + 2 + |header| + 1 + |digits| + 2, ls, blank, body);
  }

  /** The header lines after the length line hold no NUL. */
  lemma {:induction false} LinesChars(ls: seq<string>)
    requires LinesOk(ls)
    ensures '\0' !in Lines(ls)
    decreases |ls|
  {
    if ls != [] {
      assert LineOk(ls[0]) && LinesOk(ls[1..]);
      LinesChars(ls[1..]);
    }
  }

  /** The tail holds no NUL when its header name, lines and body hold none, and it starts with white space. */
  lemma LinesTailChars(header: string, ls: seq<string>, blank: string, body: string)
    requires '\0' !in header && '\0' !in body && LinesOk(ls) && BlankLine(blank)
    ensures '\0' !in PostTailWithLines(header, ls, blank, body) && IsSpace(PostTailWithLines(header, ls, blank, body)[0])
  {
    var digits := NatToString(|body|);
    forall k | 0 <= k < |digits| ensures digits[k] != '\0' {
      assert IsDigit(digits[k]);
    }
    LinesChars(ls);
  }

  /**
   * One step of the second loop: a line that is neither empty nor "\r", read before the
   * end of the text, is passed over, and the loop goes on from after it.
   */
  lemma SkipStep(s: Stream, token: string, next: Stream, line: string)
    requires s.Ok() && GetLine(s, token) == Extraction(next, line)
    requires line != "" && line != "\r" && !next.eof
    ensures SkipHeaderLines(s, token) == SkipHeaderLines(next, line)
  {
  }

  /** While text lies ahead, the second loop does not depend on the line it held before. */
  lemma LineIrrelevant(text: string, q: nat, t1: string, t2: string)
    requires q < |text|
    ensures SkipHeaderLines(Stream(text, q, false, false), t1) == SkipHeaderLines(Stream(text, q, false, false), t2)
  {
    assert GetLine(Stream(text, q, false, false), t1) == GetLine(Stream(text, q, false, false), t2);
  }

  /** The second loop passes over one header line and its "\n", and goes on from `j`, just after them. */
  lemma LineStep(text: string, p: nat, l: string, j: nat, token: string)
    requires LineOk(l) && j == p + |l| + 1 && j <= |text|
    requires text[p..j] == l + "\n"
    ensures SkipHeaderLines(Stream(text, p, false, false), token) == SkipHeaderLines(Stream(text, j, false, false), l)
  {
    Peel(text, p, l, "\n");
    assert text[j - 1] == text[j - 1..j][0];
    GetLineAt(Stream(text, p, false, false), token, j - 1);
    SkipStep(Stream(text, p, false, false), token, Stream(text, j, false, false), l);
  }

  /** Two stretches of the second loop, one after the other, make one. */
  lemma SkipChain(text: string, p: nat, j: nat, q: nat, t1: string, t2: string, t3: string)
    requires p <= j <= q <= |text|
    requires SkipHeaderLines(Stream(text, p, false, false), t1) == SkipHeaderLines(Stream(text, j, false, false), t2)
    requires SkipHeaderLines(Stream(text, j, false, false), t2) == SkipHeaderLines(Stream(text, q, false, false), t3)
    ensures SkipHeaderLines(Stream(text, p, false, false), t1) == SkipHeaderLines(Stream(text, q, false, false), t3)
  {
  }

  /** The second loop passes over the first of a run of header lines, and the rest follow at `j`. */
  lemma SkipHead(text: string, p: nat, ls: seq<string>, j: nat, q: nat, token: string)
    requires LinesOk(ls) && ls != [] && q == p + |Lines(ls)| && q < |text|
    requires text[p..q] == Lines(ls) && j == p + |ls[0]| + 1
    ensures LinesOk(ls[1..]) && q == j + |Lines(ls[1..])| && text[j..q] == Lines(ls[1..])
    ensures SkipHeaderLines(Stream(text, p, false, false), token) == SkipHeaderLines(Stream(text, j, false, false), ls[0])
  {
    assert LineOk(ls[0]) && LinesOk(ls[1..]);
    assert Lines(ls) == (ls[0] + "\n") + Lines(ls[1..]);
    Peel(text, p, ls[0] + "\n", Lines(ls[1..]));
    LineStep(text, p, ls[0], j, token);
  }

  /**
   * The second loop passes over a run of header lines, none empty or "\r", that ends at `q`
   * before the end of the text: it goes on from `q` as if they were not there.
   */
  lemma {:induction false} SkipLines(text: string, p: nat, ls: seq<string>, q: nat, token: string)
    requires LinesOk(ls) && q == p + |Lines(ls)| && q < |text|
    requires text[p..q] == Lines(ls)
    ensures SkipHeaderLines(Stream(text, p, false, false), token) == SkipHeaderLines(Stream(text, q, false, false), token)
    decreases |ls|
  {
    if ls != [] {
      var l := ls[0];
      var j := p + |l| + 1;
      SkipHead(text, p, ls, j, q, token);
      SkipLines(text, j, ls[1..], q, l);
      LineIrrelevant(text, q, l, token);
      SkipChain(text, p, j, q, token, l, token);
    }
  }

  /** The second loop stops at the first blank line, "\r\n" or "\n", just after its line break. */
  lemma BlankStop(text: string, e: nat, blank: string, b: nat, token: string)
    requires BlankLine(blank) && b == e + |blank| + 1 && b <= |text|
    requires text[e..b] == blank + "\n"
    ensures SkipHeaderLines(Stream(text, e, false, false), token) == Extraction(Stream(text, b, false, false), blank)
  {
    Peel(text, e, blank, "\n");
    assert text[e + |blank|] == text[e + |blank|..b][0];
    GetLineAt(Stream(text, e, false, false), token, e + |blank|);
  }

  /** From the start of the lines after the `Content-Length` line, the second loop ends just after the blank line. */
  lemma LinesSkip(text: string, m: nat, ls: seq<string>, blank: string, b: nat, token: string)
    requires LinesOk(ls) && BlankLine(blank) && b == m + |Lines(ls)| + |blank| + 1 && b <= |text|
    requires text[m..m + |Lines(ls)|] == Lines(ls) && text[m + |Lines(ls)|..b] == blank + "\n"
    ensures SkipHeaderLines(Stream(text, m, false, false), token) == Extraction(Stream(text, b, false, false), blank)
  {
    var e := m + |Lines(ls)|;
    SkipLines(text, m, ls, e, token);
    BlankStop(text, e, blank, b, token);
  }

  /** In the layout, the second loop ends just after the blank line, where the body starts. */
  lemma LayoutSkip(text: string, p: nat, header: string, digits: string, ls: seq<string>, blank: string, body: string, m: nat, b: nat, token: string)
    requires LinesLayoutAt(text, p, header, digits, ls, blank, body) && LinesOk(ls) && BlankLine(blank)
    requires m == p + 2 + |header| + 1 + |digits| + 2 && b == m + |Lines(ls)| + |blank| + 1
    ensures b + |body| <= |text| && text[b..b + |body|] == body
    ensures SkipHeaderLines(Stream(text, m, false, false), token) == Extraction(Stream(text, b, false, false), blank)
  {
    LinesSkip(text, m, ls, blank, b, token);
  }

  /**
   * Once the header scan has found a length line that `std::stoi` reads as the body's length,
   * and the second loop has ended where the body starts, the body is read in full.
   */
  lemma BodyFrom(text: string, p: nat, m: nat, b: nat, line: string, blank: string, body: string, request: Request)
    requires p <= m <= b && b + |body| <= |text| && text[b..b + |body|] == body
    requires StoI(line) == Some(|body|)
    requires ScanHeaders(Stream(text, p, false, false), "HTTP/1.1") == Scan(Stream(text, m, false, false), line, Some(line))
    requires SkipHeaderLines(Stream(text, m, false, false), line) == Extraction(Stream(text, b, false, false), blank)
    ensures ParseBody(Extraction(Stream(text, p, false, false), "HTTP/1.1"), request) == Returned(0, request.(value := body))
  {
  }

  /** A POST body after its length line, other header lines and the blank line is read in full from `p`. */
  lemma LinesAt(text: string, p: nat, header: string, ls: seq<string>, blank: string, body: string, request: Request)
    requires LinesLayoutAt(text, p, header, NatToString(|body|), ls, blank, body) && LinesOk(ls) && BlankLine(blank)
    requires |body| <= IntMax && Lower(header) == "content-length:"
    ensures ParseBody(Extraction(Stream(text, p, false, false), "HTTP/1.1"), request) == Returned(0, request.(value := body))
  {
    var digits := NatToString(|body|);
    var line := " " + digits + "\r";
    var m := p + 2 + |header| + 1 + |digits| + 2;
    var b := m + |Lines(ls)| + |blank| + 1;
    LayoutSkip(text, p, header, digits, ls, blank, body, m, b, line);
    StoINatToString(" ", |body|, "\r");
    PostScan(text, p, header, digits);
    BodyFrom(text, p, m, b, line, blank, body, request);
  }

  /** Where the fields, the length line, the lines after it and the body sit in the text of the request. */
  lemma FieldsLinesLayout(text: string, line: string, fs: seq<Field>, header: string, ls: seq<string>, blank: string, body: string, p: nat)
    requires text == line + Fields(fs) + PostTailWithLines(header, ls, blank, body) && p == |line| + |Fields(fs)|
    requires Lower(header) == "content-length:"
    ensures LinesLayoutAt(text, p, header, NatToString(|body|), ls, blank, body)
    ensures p + 2 < |text| && text[|line|..p] == Fields(fs) && IsSpace(text[p]) && !IsSpace(text[p + 2])
  {
    FieldsAfterLine(line, fs, PostTailWithLines(header, ls, blank, body));
    LinesLayout(text, p, header, NatToString(|body|), ls, blank, body);
    LengthLineStart(text, p, header, NatToString(|body|));
  }

  /**
   * After a request line, other header lines, a `Content-Length` line, more header lines and
   * a blank line: the body is read in full with the declared length.
   */
  lemma BodyWithTrailingLines(text: string, line: string, fs: seq<Field>, header: string, ls: seq<string>, blank: string, body: string, request: Request)
    requires text == line + Fields(fs) + PostTailWithLines(header, ls, blank, body)
    requires FieldsOk(fs) && LinesOk(ls) && BlankLine(blank)
    requires |body| <= IntMax && Lower(header) == "content-length:"
    ensures ParseBody(Extraction(Stream(text, |line|, false, false), "HTTP/1.1"), request) == Returned(0, request.(value := body))
  {
    var p := |line| + |Fields(fs)|;
    FieldsLinesLayout(text, line, fs, header, ls, blank, body, p);
    FieldsThenToken(text, |line|, fs, p, 2, "HTTP/1.1");
    LinesAt(text, p, header, ls, blank, body, request);
    ParseBodyByScan(Extraction(Stream(text, |line|, false, false), "HTTP/1.1"), Extraction(Stream(text, p, false, false), "HTTP/1.1"), request);
  }

  /**
   * A POST request with header lines before and after its `Content-Length` line parses to
   * its key and exactly its body: the second loop passes over every line up to the first
   * blank one, ended by "\r\n" or a bare "\n", and the body starts right after it.
   */
  lemma ParsePostWithTrailingHeaders(key: string, fs: seq<Field>, header: string, ls: seq<string>, blank: string, body: string, request: Request)
    requires ValidKey(key) && FieldsOk(fs) && LinesOk(ls) && BlankLine(blank)
    requires '\0' !in body && |body| <= IntMax && Lower(header) == "content-length:"
    ensures Parse(RequestLine(POST, key, "HTTP/1.1") + Fields(fs) + PostTailWithLines(header, ls, blank, body), request)
      == Returned(0, Request(POST, key, body))
  {
    var line := RequestLine(POST, key, "HTTP/1.1");
    var tail := PostTailWithLines(header, ls, blank, body);
    ContentLengthChars(header);
    LinesTailChars(header, ls, blank, body);
    FieldsBefore(fs, tail);
    ParseLine(POST, key, Fields(fs) + tail, request);
    BodyWithTrailingLines(line + Fields(fs) + tail, line, fs, header, ls, blank, body, request.(kind := POST, key := key));
  }
}

=== FILE: input_stream.dfy ===
/**
 * The `std::istringstream` the request parser reads from: a text, a read position and
 * the `eof` and `fail` state bits. Each extraction first checks that the stream is good
 * (neither bit set); if it is not, the extraction sets `fail` and changes nothing else,
 * in particular not the string it would have filled.
 */
module InputStream {
  import opened Text

  datatype Stream = Stream(text: string, pos: nat, eof: bool, fail: bool) {
    /** The position is inside the text, and a stream only fails once it has reached its end. */
    ghost predicate Ok() {
      pos <= |text| && (fail ==> eof)
    }

    predicate Good() {
      !eof && !fail
    }
  }

  function Open(text: string): (s: Stream)
    ensures s.Ok() && s.Good() && s.pos == 0
  {
    Stream(text, 0, false, false)
  }

  /** A stream after an extraction, and the string the extraction filled. */
  datatype Extraction = Extraction(stream: Stream, token: string)

  /**
   * `strm >> token`: skip white space, then take the characters up to the next white
   * space or the end. At the end of the text it sets `eof` and `fail` and leaves `token`
   * as it was.
   */
  function ReadToken(s: Stream, token: string): (r: Extraction)
    requires s.Ok()
    ensures r.stream.Ok() && r.stream.text == s.text && s.pos <= r.stream.pos
    ensures !r.stream.eof ==> s.pos < r.stream.pos
    ensures r.stream.fail ==> r.token == token
    ensures !r.stream.fail ==> r.token != [] && NoSpace(r.token)
  {
    if !s.Good() then Extraction(s.(fail := true), token)
    else
      var i := SkipSpace(s.text, s.pos);
      if i == |s.text| then Extraction(Stream(s.text, i, true, true), token)
      else
        var j := SpaceFrom(s.text, i);
        Extraction(Stream(s.text, j, j == |s.text|, false), s.text[i..j])
  }

  /** The first position at or after `i` that holds a newline (or the end). */
  function LineEnd(s: string, i: nat): (j: nat)
    requires i <= |s|
    ensures i <= j <= |s|
    ensures forall k :: i <= k < j ==> s[k] != '\n'
    ensures j < |s| ==> s[j] == '\n'
    decreases |s| - i
  {
    if i < |s| && s[i] != '\n' then LineEnd(s, i + 1) else i
  }

  /**
   * `std::getline(strm, token)`: the characters up to the next newline, which is consumed
   * but not stored. Reaching the end sets `eof`; reaching it without reading anything
   * also sets `fail` and leaves `token` empty.
   */
  function GetLine(s: Stream, token: string): (r: Extraction)
    requires s.Ok()
    ensures r.stream.Ok() && r.stream.text == s.text && s.pos <= r.stream.pos
    ensures !r.stream.eof ==> s.pos < r.stream.pos
    ensures '\n' !in r.token || r.token == token
  {
    if !s.Good() then Extraction(s.(fail := true), token)
    else if s.pos == |s.text| then Extraction(s.(eof := true, fail := true), "")
    else
      var j := LineEnd(s.text, s.pos);
      if j == |s.text| then Extraction(Stream(s.text, j, true, false), s.text[s.pos..j])
      else Extraction(Stream(s.text, j + 1, false, false), s.text[s.pos..j])
  }

  /** `n` NUL characters, what `std::string(n, '\0')` holds. */
  function Nuls(n: nat): (r: string)
    ensures |r| == n && forall i :: 0 <= i < n ==> r[i] == '\0'
  {
    if n == 0 then [] else Nuls(n - 1) + ['\0']
  }

  /**
   * `value = std::string(n, '\0'); strm.read(&value[0], n)`: up to `n` characters from
   * the stream into a string of `n` NULs. Reading short sets `eof` and `fail`.
   */
  function ReadInto(s: Stream, n: nat): (r: Extraction)
    requires s.Ok()
    ensures r.stream.Ok() && r.stream.text == s.text
    ensures |r.token| == n
    ensures s.Good() && s.pos + n <= |s.text| ==> r.token == s.text[s.pos..s.pos + n]
    ensures !s.Good() ==> r.token == Nuls(n)
    ensures s.Good() ==> forall i :: 0 <= i < n ==>
      r.token[i] == if s.pos + i < |s.text| then s.text[s.pos + i] else '\0'
  {
    if !s.Good() then Extraction(s.(fail := true), Nuls(n))
    else if s.pos + n <= |s.text| then Extraction(s.(pos := s.pos + n), s.text[s.pos..s.pos + n])
    else Extraction(Stream(s.text, |s.text|, true, true), s.text[s.pos..] + Nuls(n - (|s.text| - s.pos)))
  }

  // ---------------------------------------------------------------------------------------
  // What the extractions do on text of a known shape

  /**
   * `>>` on a good stream whose text holds white space up to `i`, then other characters
   * up to `j`, then white space or the end, yields the characters from `i` to `j`.
   */
  lemma ReadTokenAt(s: Stream, token: string, i: nat, j: nat)
    requires s.Ok() && s.Good() && s.pos <= i < j <= |s.text|
    requires AllSpace(s.text[s.pos..i]) && NoSpace(s.text[i..j])
    requires j < |s.text| ==> IsSpace(s.text[j])
    ensures ReadToken(s, token) == Extraction(Stream(s.text, j, j == |s.text|, false), s.text[i..j])
  {
    forall k | s.pos <= k < i ensures IsSpace(s.text[k]) {
      assert s.text[k] == s.text[s.pos..i][k - s.pos];
    }
    forall k | i <= k < j ensures !IsSpace(s.text[k]) {
      assert s.text[k] == s.text[i..j][k - i];
    }
    assert !IsSpace(s.text[i]);
    if j < |s.text| {
      assert IsSpace(s.text[j]);
    }
  }

  /** `getline` on a good stream whose next newline is at `j` yields the text up to it and stops after it. */
  lemma GetLineAt(s: Stream, token: string, j: nat)
    requires s.Ok() && s.Good() && s.pos <= j < |s.text| && s.text[j] == '\n'
    requires '\n' !in s.text[s.pos..j]
    ensures GetLine(s, token) == Extraction(Stream(s.text, j + 1, false, false), s.text[s.pos..j])
  {
    forall k | s.pos <= k < j ensures s.text[k] != '\n' {
      assert s.text[k] == s.text[s.pos..j][k - s.pos];
    }
    assert LineEnd(s.text, s.pos) == j;
  }
}

=== FILE: kvstore.dfy ===
/**
 * The key-value store with a bounded least-recently-used write-back cache.
 *
 * The store keeps an in-memory map `store`, a recency list `cacheList` (the front is the
 * least recently touched key, the back the most recent) and a capacity `cacheSize`.
 * Behind the cache lies the storage directory, one file per key, modelled as the map
 * `disk`: reading a file fails exactly when the key has no file, writing overwrites and
 * deleting tolerates absence. The logical contents of the store are the directory
 * overlaid by the cache.
 *
 * The operations are first given as functions on a `Snapshot` of the state, with the
 * lemmas about them; the class `ThreadSafeKVStore` then performs them step by step on
 * its fields and is proved to follow those functions.
 */
module KVStore {
  import opened RecencyList

  type Key = string
  type Value = string
  /** The storage directory: the content of the file for each key that has one. */
  type Disk = map<Key, Value>

  datatype Snapshot = Snapshot(store: map<Key, Value>, cacheList: seq<Key>, disk: Disk)

  /** What the store answers: the files, overridden by the cached values. */
  function Contents(s: Snapshot): (m: map<Key, Value>)
    ensures m.Keys == s.disk.Keys + s.store.Keys
    ensures forall k :: k in s.store ==> m[k] == s.store[k]
  {
    s.disk + s.store
  }

  /**
   * The cache invariant: the recency list holds exactly the cached keys, each once,
   * and there are at most `cacheSize` of them.
   */
  ghost predicate Inv(s: Snapshot, cacheSize: nat) {
    && (forall k :: k in s.cacheList <==> k in s.store)
    && NoDup(s.cacheList)
    && |s.cacheList| <= cacheSize
  }

  /** A new store has an empty cache in front of whatever the directory holds. */
  function Fresh(disk: Disk): (s: Snapshot)
    ensures forall n: nat :: Inv(s, n)
    ensures Contents(s) == disk
  {
    Snapshot(map[], [], disk)
  }

  /** Eviction: write the front (least recent) key's value to its file, then drop it from the cache. */
  function Evict(s: Snapshot): (r: Snapshot)
    requires |s.cacheList| > 0 && s.cacheList[0] in s.store
    ensures s.cacheList[0] !in r.store && s.cacheList[0] in r.disk && r.disk[s.cacheList[0]] == s.store[s.cacheList[0]]
    ensures forall k :: k != s.cacheList[0] ==> (k in r.store <==> k in s.store) && (k in r.disk <==> k in s.disk)
    ensures |r.cacheList| == |s.cacheList| - 1
  {
    var k := s.cacheList[0];
    Snapshot(s.store - {k}, s.cacheList[1..], s.disk[k := s.store[k]])
  }

  /** `insert(key, value)`. */
  function InsertSpec(s: Snapshot, cacheSize: nat, key: Key, value: Value): (r: Snapshot)
    requires Inv(s, cacheSize)
    ensures cacheSize > 0 ==> key in r.store && r.store[key] == value
    ensures cacheSize > 0 ==> r.cacheList != [] && r.cacheList[|r.cacheList| - 1] == key
    ensures cacheSize == 0 ==> r.store == map[] && r.disk == s.disk[key := value]
    ensures |r.cacheList| <= cacheSize
  {
    if key in s.store then
      Snapshot(s.store[key := value], RemoveAll(s.cacheList, key) + [key], s.disk)
    else
      var t := Snapshot(s.store[key := value], s.cacheList + [key], s.disk);
      if |t.cacheList| > cacheSize then Evict(t) else t
  }

  /** The new state, the return code and the value handed back by `lookup(key)`. */
  datatype LookupResult = LookupResult(next: Snapshot, rc: int, value: Value)

  /** `lookup(key)`. On a miss the value out-parameter is left as the caller's empty string. */
  function LookupSpec(s: Snapshot, cacheSize: nat, key: Key): (r: LookupResult)
    requires Inv(s, cacheSize)
    ensures r.rc == -1 <==> key !in s.store && key !in s.disk
    ensures r.rc == -1 ==> r.next == s && r.value == ""
    ensures r.rc == 0 && cacheSize > 0 ==> key in r.next.store && r.next.cacheList != [] && r.next.cacheList[|r.next.cacheList| - 1] == key
  {
    if key in s.store then
      LookupResult(Snapshot(s.store, RemoveAll(s.cacheList, key) + [key], s.disk), 0, s.store[key])
    else if key !in s.disk then
      LookupResult(s, -1, "")
    else
      var value := s.disk[key];
      if cacheSize == 0 then LookupResult(s, 0, value)
      else
        var t := if |s.cacheList| == cacheSize then Evict(s) else s;
        LookupResult(Snapshot(t.store[key := value], t.cacheList + [key], t.disk), 0, value)
  }

  /** `remove(key)`: erase from the map, the list and the directory; always returns 0. */
  function RemoveSpec(s: Snapshot, key: Key): (r: Snapshot)
    ensures key !in r.store && key !in r.cacheList && key !in r.disk
    ensures forall k :: k != key ==> (k in r.store <==> k in s.store) && (k in r.cacheList <==> k in s.cacheList) && (k in r.disk <==> k in s.disk)
  {
    Snapshot(s.store - {key}, RemoveAll(s.cacheList, key), s.disk - {key})
  }

  /**
   * The directory after `cacheWriteBack`, when writing the files of the keys in `failed`
   * fails. A failed write is taken to fail on opening, so its file is left as it was.
   */
  function WrittenBack(s: Snapshot, failed: set<Key>): (d: Disk)
    ensures d.Keys == s.disk.Keys + (s.store.Keys - failed)
    ensures forall k :: k in s.store && k !in failed ==> d[k] == s.store[k]
    ensures forall k :: k in s.disk && (k !in s.store || k in failed) ==> d[k] == s.disk[k]
  {
    s.disk + (s.store - failed)
  }

  /** The result of `cacheWriteBack`: -1 when some write failed, else 0. */
  function WriteBackCode(s: Snapshot, failed: set<Key>): (c: int)
    ensures c == 0 || c == -1
    ensures c == 0 <==> forall k :: k in s.store ==> k !in failed
  {
    if s.store.Keys * failed == {} then
      assert forall k :: k in s.store ==> k !in s.store.Keys * failed;
      0
    else
      assert exists k :: k in s.store.Keys * failed;
      -1
  }

  // ---------------------------------------------------------------------------------------
  // The cache invariant

  /** The number of cached entries never exceeds the capacity. */
  lemma CacheBounded(s: Snapshot, cacheSize: nat)
    requires Inv(s, cacheSize)
    ensures |s.store| <= cacheSize
  {
    NoDupCard(s.cacheList);
    assert (set x | x in s.cacheList) == s.store.Keys;
  }

  lemma EvictKeepsInv(s: Snapshot, cacheSize: nat)
    requires |s.cacheList| > 0 && s.cacheList[0] in s.store
    requires forall k :: k in s.cacheList <==> k in s.store
    requires NoDup(s.cacheList)
    ensures var t := Evict(s);
      && (forall k :: k in t.cacheList <==> k in t.store)
      && NoDup(t.cacheList)
      && |t.cacheList| == |s.cacheList| - 1
  {
    var t := Evict(s);
    var f := s.cacheList[0];
    forall k ensures k in t.cacheList <==> k in t.store {
      if k in t.cacheList {
        var i :| 0 <= i < |t.cacheList| && t.cacheList[i] == k;
        assert s.cacheList[i + 1] == k;
      }
      if k in t.store {
        assert k in s.cacheList && k != f;
        var i :| 0 <= i < |s.cacheList| && s.cacheList[i] == k;
        assert i != 0;
        assert t.cacheList[i - 1] == k;
      }
    }
    assert NoDup(t.cacheList) by {
      forall i, j | 0 <= i < j < |t.cacheList| ensures t.cacheList[i] != t.cacheList[j] {
        assert t.cacheList[i] == s.cacheList[i + 1] && t.cacheList[j] == s.cacheList[j + 1];
      }
    }
  }

  lemma AppendKeepsNoDup(xs: seq<Key>, k: Key)
    requires NoDup(xs) && k !in xs
    ensures NoDup(xs + [k])
  {
    var r := xs + [k];
    forall i, j | 0 <= i < j < |r| ensures r[i] != r[j] {
      if j == |xs| {
        assert r[i] == xs[i];
      } else {
        assert r[i] == xs[i] && r[j] == xs[j];
      }
    }
  }

  /** `insert` keeps the cache invariant: in particular the cache never holds more than `cacheSize` entries. */
  lemma InsertKeepsInv(s: Snapshot, cacheSize: nat, key: Key, value: Value)
    requires Inv(s, cacheSize)
    ensures Inv(InsertSpec(s, cacheSize, key, value), cacheSize)
  {
    if key in s.store {
      RemoveAllNoDup(s.cacheList, key);
      AppendKeepsNoDup(RemoveAll(s.cacheList, key), key);
      var i :| 0 <= i < |s.cacheList| && s.cacheList[i] == key;
      RemoveAllAt(s.cacheList, i);
    } else {
      AppendKeepsNoDup(s.cacheList, key);
      var t := Snapshot(s.store[key := value], s.cacheList + [key], s.disk);
      if |t.cacheList| > cacheSize {
        assert t.cacheList[0] in t.store;
        EvictKeepsInv(t, cacheSize);
      }
    }
  }

  /** `lookup` keeps the cache invariant. */
  lemma LookupKeepsInv(s: Snapshot, cacheSize: nat, key: Key)
    requires Inv(s, cacheSize)
    ensures Inv(LookupSpec(s, cacheSize, key).next, cacheSize)
  {
    if key in s.store {
      RemoveAllNoDup(s.cacheList, key);
      AppendKeepsNoDup(RemoveAll(s.cacheList, key), key);
      var i :| 0 <= i < |s.cacheList| && s.cacheList[i] == key;
      RemoveAllAt(s.cacheList, i);
    } else if key in s.disk && cacheSize > 0 {
      var t := if |s.cacheList| == cacheSize then Evict(s) else s;
      if |s.cacheList| == cacheSize {
        EvictKeepsInv(s, cacheSize);
      }
      assert key !in t.cacheList;
      AppendKeepsNoDup(t.cacheList, key);
    }
  }

  /** `remove` keeps the cache invariant. */
  lemma RemoveKeepsInv(s: Snapshot, cacheSize: nat, key: Key)
    requires Inv(s, cacheSize)
    ensures Inv(RemoveSpec(s, key), cacheSize)
  {
    RemoveAllNoDup(s.cacheList, key);
  }

  // ---------------------------------------------------------------------------------------
  // Logical contents

  /** Eviction persists the evicted value before dropping it, so the contents do not change. */
  lemma EvictKeepsContents(s: Snapshot)
    requires |s.cacheList| > 0 && s.cacheList[0] in s.store
    ensures Contents(Evict(s)) == Contents(s)
  {
    var t := Evict(s);
    var f := s.cacheList[0];
    assert Contents(t).Keys == Contents(s).Keys;
    forall k | k in Contents(s) ensures Contents(t)[k] == Contents(s)[k] {
      if k == f {
        assert k !in t.store;
      }
    }
  }

  /** `insert(key, value)` sets the contents at `key` to `value`, whether or not it evicts. */
  lemma InsertContents(s: Snapshot, cacheSize: nat, key: Key, value: Value)
    requires Inv(s, cacheSize)
    ensures Contents(InsertSpec(s, cacheSize, key, value)) == Contents(s)[key := value]
  {
    if key !in s.store {
      var t := Snapshot(s.store[key := value], s.cacheList + [key], s.disk);
      assert Contents(t) == Contents(s)[key := value];
      if |t.cacheList| > cacheSize {
        EvictKeepsContents(t);
      }
    }
  }

  /** Admitting a key read from its file, after evicting if the cache is full, keeps the contents. */
  lemma AdmitKeepsContents(s: Snapshot, cacheSize: nat, key: Key)
    requires Inv(s, cacheSize) && key !in s.store && key in s.disk && cacheSize > 0
    ensures Contents(LookupSpec(s, cacheSize, key).next) == Contents(s)
  {
    var t := if |s.cacheList| == cacheSize then Evict(s) else s;
    if |s.cacheList| == cacheSize {
      EvictKeepsContents(s);
    }
    assert Contents(t) == Contents(s) && key in Contents(t) && Contents(t)[key] == s.disk[key];
    assert LookupSpec(s, cacheSize, key).next == Snapshot(t.store[key := s.disk[key]], t.cacheList + [key], t.disk);
  }

  /**
   * `lookup(key)` returns 0 and the value exactly when the key is in the contents,
   * and -1 otherwise; it never changes the contents.
   */
  lemma LookupContents(s: Snapshot, cacheSize: nat, key: Key)
    requires Inv(s, cacheSize)
    ensures var r := LookupSpec(s, cacheSize, key);
      && (r.rc == 0 || r.rc == -1)
      && (r.rc == 0 <==> key in Contents(s))
      && (r.rc == 0 ==> r.value == Contents(s)[key])
      && Contents(r.next) == Contents(s)
  {
    var r := LookupSpec(s, cacheSize, key);
    if key in s.store {
      assert r.next.store == s.store && r.next.disk == s.disk;
    } else if key !in s.disk {
      assert key !in Contents(s);
    } else {
      assert Contents(s)[key] == s.disk[key];
      if cacheSize > 0 {
        AdmitKeepsContents(s, cacheSize, key);
      }
    }
  }

  /** `remove(key)` erases `key` from the contents and nothing else. */
  lemma RemoveContents(s: Snapshot, key: Key)
    ensures Contents(RemoveSpec(s, key)) == Contents(s) - {key}
  {
  }

  /** `cacheWriteBack` does not change what the store answers. */
  lemma WriteBackKeepsContents(s: Snapshot, failed: set<Key>)
    ensures Contents(s.(disk := WrittenBack(s, failed))) == Contents(s)
  {
  }

  /** When no write fails, `cacheWriteBack` leaves every entry of the store in its file. */
  lemma WriteBackPersists(s: Snapshot, failed: set<Key>)
    requires WriteBackCode(s, failed) == 0
    ensures WrittenBack(s, failed) == Contents(s)
  {
    forall k | k in s.store ensures k !in failed {
      assert k !in s.store.Keys * failed;
    }
    assert s.store - failed == s.store;
  }

  /** One step of the write-back loop: the file of `k` is written unless `k` is in `failed`. */
  lemma WriteBackStep(disk: Disk, store: map<Key, Value>, failed: set<Key>, pending: set<Key>, k: Key)
    requires k in pending && pending <= store.Keys
    ensures var before := disk + (store - failed - pending);
      var after := disk + (store - failed - (pending - {k}));
      && (k in failed ==> after == before)
      && (k !in failed ==> after == before[k := store[k]])
    ensures (store.Keys - (pending - {k})) * failed == {} <==> (store.Keys - pending) * failed == {} && k !in failed
  {
    assert (store.Keys - (pending - {k})) * failed == (store.Keys - pending) * failed + ({k} * failed);
    if k in failed {
      assert k in (store.Keys - (pending - {k})) * failed;
    }
  }

  // ---------------------------------------------------------------------------------------
  // Operation by operation

  /**
   * Inserting a cached key replaces its value and moves it to the back of the list; the
   * other keys keep their relative order and nothing is written to the directory.
   */
  lemma InsertCached(s: Snapshot, cacheSize: nat, i: nat, value: Value)
    requires Inv(s, cacheSize) && i < |s.cacheList|
    ensures var key := s.cacheList[i]; var t := InsertSpec(s, cacheSize, key, value);
      && t.store == s.store[key := value]
      && t.cacheList == s.cacheList[..i] + s.cacheList[i + 1..] + [key]
      && t.disk == s.disk
  {
    RemoveAllAt(s.cacheList, i);
  }

  /**
   * Inserting a new key into a full cache evicts exactly the front key, whose value is
   * written to its file; with `cacheSize == 0` the new key itself goes to the directory.
   */
  lemma InsertEvicts(s: Snapshot, cacheSize: nat, key: Key, value: Value)
    requires Inv(s, cacheSize) && key !in s.store && |s.cacheList| == cacheSize
    ensures var t := InsertSpec(s, cacheSize, key, value);
      && (cacheSize == 0 ==> t.store == map[] && t.cacheList == [] && t.disk == s.disk[key := value])
      && (cacheSize > 0 ==>
            var f := s.cacheList[0];
            && t.disk == s.disk[f := s.store[f]]
            && t.store == (s.store - {f})[key := value]
            && t.cacheList == s.cacheList[1..] + [key])
  {
    var t := InsertSpec(s, cacheSize, key, value);
    if cacheSize > 0 {
      var f := s.cacheList[0];
      assert f != key;
      assert t.store == (s.store[key := value]) - {f};
    }
  }

  /** Inserting a new key while there is room admits it at the back and writes nothing. */
  lemma InsertAdmits(s: Snapshot, cacheSize: nat, key: Key, value: Value)
    requires Inv(s, cacheSize) && key !in s.store && |s.cacheList| < cacheSize
    ensures InsertSpec(s, cacheSize, key, value) == Snapshot(s.store[key := value], s.cacheList + [key], s.disk)
  {
  }

  /** A lookup hit returns the cached value, moves the key to the back and changes no value. */
  lemma LookupHit(s: Snapshot, cacheSize: nat, i: nat)
    requires Inv(s, cacheSize) && i < |s.cacheList|
    ensures var key := s.cacheList[i]; var r := LookupSpec(s, cacheSize, key);
      && r.rc == 0 && r.value == s.store[key]
      && r.next.store == s.store && r.next.disk == s.disk
      && r.next.cacheList == s.cacheList[..i] + s.cacheList[i + 1..] + [key]
  {
    RemoveAllAt(s.cacheList, i);
  }

  /**
   * A lookup miss that finds the file returns 0 and its content; the key is admitted
   * exactly when caching is enabled, after evicting the front key if the cache is full.
   */
  lemma LookupFromDisk(s: Snapshot, cacheSize: nat, key: Key)
    requires Inv(s, cacheSize) && key !in s.store && key in s.disk
    ensures var r := LookupSpec(s, cacheSize, key);
      && r.rc == 0 && r.value == s.disk[key]
      && (key in r.next.store <==> cacheSize > 0)
      && (cacheSize > 0 && |s.cacheList| == cacheSize ==>
            var f := s.cacheList[0];
            && r.next.disk == s.disk[f := s.store[f]]
            && f !in r.next.store
            && r.next.cacheList == s.cacheList[1..] + [key])
      && (|s.cacheList| < cacheSize ==> r.next.disk == s.disk && r.next.cacheList == s.cacheList + [key])
  {
    if cacheSize > 0 && |s.cacheList| == cacheSize {
      assert s.cacheList[0] != key;
    }
  }

  /** After `remove(key)` a lookup of `key` finds nothing, whether or not it existed. */
  lemma RemoveThenLookup(s: Snapshot, cacheSize: nat, key: Key)
    requires Inv(s, cacheSize)
    ensures Inv(RemoveSpec(s, key), cacheSize)
    ensures LookupSpec(RemoveSpec(s, key), cacheSize, key).rc == -1
  {
    RemoveKeepsInv(s, cacheSize, key);
  }

  /** After `insert(key, value)` a lookup of `key` returns `value`, even if the entry was evicted at once. */
  lemma InsertThenLookup(s: Snapshot, cacheSize: nat, key: Key, value: Value)
    requires Inv(s, cacheSize)
    ensures Inv(InsertSpec(s, cacheSize, key, value), cacheSize)
    ensures var r := LookupSpec(InsertSpec(s, cacheSize, key, value), cacheSize, key);
      r.rc == 0 && r.value == value
  {
    InsertKeepsInv(s, cacheSize, key, value);
    InsertContents(s, cacheSize, key, value);
    LookupContents(InsertSpec(s, cacheSize, key, value), cacheSize, key);
  }

  // ---------------------------------------------------------------------------------------
  // The store object

  class ThreadSafeKVStore {
    var store: map<Key, Value>
    var cacheList: seq<Key>
    var disk: Disk
    const cacheSize: nat

    ghost function Snap(): Snapshot
      reads this
    {
      Snapshot(store, cacheList, disk)
    }

    ghost predicate Valid()
      reads this
    {
      Inv(Snap(), cacheSize)
    }

    /** A new store with an empty cache in front of the storage directory `disk`. */
    constructor (disk: Disk, cacheSize: nat)
      ensures Valid() && this.cacheSize == cacheSize
      ensures Snap() == Fresh(disk) && Contents(Snap()) == disk
    {
      this.store := map[];
      this.cacheList := [];
      this.disk := disk;
      this.cacheSize := cacheSize;
    }

    /** Insert or update `key`; always returns 0 (a failed eviction write ends the process). */
    method Insert(key: Key, value: Value) returns (rc: int)
      requires Valid()
      modifies this
      ensures Valid() && rc == 0
      ensures Snap() == InsertSpec(old(Snap()), cacheSize, key, value)
      ensures Contents(Snap()) == old(Contents(Snap()))[key := value]
    {
      ghost var s := Snap();
      if key in store {
        cacheList := RemoveAll(cacheList, key);
        cacheList := cacheList + [key];
        store := store[key := value];
      } else {
        cacheList := cacheList + [key];
        store := store[key := value];
        if |cacheList| > cacheSize {
          var front := cacheList[0];
          disk := disk[front := store[front]];
          store := store - {front};
          cacheList := cacheList[1..];
        }
      }
      rc := 0;
      InsertKeepsInv(s, cacheSize, key, value);
      InsertContents(s, cacheSize, key, value);
    }

    /** Look `key` up in the cache, then in the directory; 0 and its value if present, else -1. */
    method Lookup(key: Key) returns (rc: int, value: Value)
      requires Valid()
      modifies this
      ensures Valid()
      ensures var r := LookupSpec(old(Snap()), cacheSize, key);
        Snap() == r.next && rc == r.rc && value == r.value
      ensures rc == 0 <==> key in old(Contents(Snap()))
      ensures rc == 0 ==> value == old(Contents(Snap()))[key]
      ensures rc != 0 ==> rc == -1
      ensures Contents(Snap()) == old(Contents(Snap()))
    {
      ghost var s := Snap();
      value := "";
      var found := false;
      if key in store {
        found := true;
        value := store[key];
        cacheList := RemoveAll(cacheList, key);
        cacheList := cacheList + [key];
      } else if key in disk {
        value := disk[key];
        found := true;
        if cacheSize != 0 {
          if |cacheList| == cacheSize {
            var front := cacheList[0];
            disk := disk[front := store[front]];
            store := store - {front};
            cacheList := cacheList[1..];
          }
          store := store[key := value];
          cacheList := cacheList + [key];
        }
      }
      rc := if found then 0 else -1;
      LookupKeepsInv(s, cacheSize, key);
      LookupContents(s, cacheSize, key);
    }

    /** Erase `key` from the cache and delete its file; succeeds whether or not it existed. */
    method Remove(key: Key) returns (rc: int)
      requires Valid()
      modifies this
      ensures Valid() && rc == 0
      ensures Snap() == RemoveSpec(old(Snap()), key)
      ensures Contents(Snap()) == old(Contents(Snap())) - {key}
    {
      ghost var s := Snap();
      store := store - {key};
      cacheList := RemoveAll(cacheList, key);
      disk := disk - {key};
      rc := 0;
      RemoveKeepsInv(s, cacheSize, key);
      RemoveContents(s, key);
    }

    /**
     * Write every cached entry to its file, in no particular order, keeping the cache.
     * Writing the file of a key in `failed` fails and leaves that file as it was.
     */
    method CacheWriteBack(failed: set<Key>) returns (ret: int)
      requires Valid()
      modifies this
      ensures Valid()
      ensures store == old(store) && cacheList == old(cacheList)
      ensures disk == WrittenBack(old(Snap()), failed)
      ensures ret == WriteBackCode(old(Snap()), failed)
      ensures Contents(Snap()) == old(Contents(Snap()))
    {
      ret := 0;
      var pending := store.Keys;
      while pending != {}
        invariant pending <= store.Keys
        invariant store == old(store) && cacheList == old(cacheList)
        invariant disk == old(disk) + (store - failed - pending)
        invariant ret == (if (store.Keys - pending) * failed == {} then 0 else -1)
        decreases pending
      {
        var k :| k in pending;
        WriteBackStep(old(disk), store, failed, pending, k);
        if k in failed {
          ret := -1;
        } else {
          disk := disk[k := store[k]];
        }
        pending := pending - {k};
      }
      assert store - failed - pending == store - failed;
      WriteBackKeepsContents(old(Snap()), failed);
    }

    /**
     * The destructor: write every cached entry back before the store goes away. A failed
     * write is fatal for the process; otherwise every entry the store holds is in its file.
     */
    method Destroy(failed: set<Key>) returns (fatal: bool)
      requires Valid()
      modifies this
      ensures fatal <==> old(store).Keys * failed != {}
      ensures !fatal ==> disk == old(Contents(Snap()))
    {
      ghost var s := Snap();
      var ret := CacheWriteBack(failed);
      fatal := ret != 0;
      if !fatal {
        WriteBackPersists(s, failed);
      }
    }
  }
}

=== FILE: recency_list.dfy ===
/**
 * The operations of `std::list<std::string>` that the store uses on its recency list:
 * `remove(key)` (erase every occurrence), `push_back`, `front` and `pop_front`.
 * Lists are modelled as sequences; `push_back` is `xs + [k]` and `pop_front` is `xs[1..]`.
 */
module RecencyList {

  /** No key occurs twice. */
  ghost predicate NoDup(xs: seq<string>) {
    forall i, j :: 0 <= i < j < |xs| ==> xs[i] != xs[j]
  }

  /** Without duplicates, the tail has none either and does not hold the head. */
  lemma NoDupTail(xs: seq<string>)
    requires NoDup(xs) && xs != []
    ensures NoDup(xs[1..]) && xs[0] !in xs[1..]
  {
    var tail := xs[1..];
    forall a, b | 0 <= a < b < |tail| ensures tail[a] != tail[b] {
      assert tail[a] == xs[a + 1] && tail[b] == xs[b + 1];
    }
    forall j | 0 <= j < |tail| ensures tail[j] != xs[0] {
      assert tail[j] == xs[j + 1];
    }
  }

  /** `std::list::remove(k)`: erases every element equal to `k`, keeping the others in order. */
  function RemoveAll(xs: seq<string>, k: string): (r: seq<string>)
    ensures forall x :: x in r <==> x in xs && x != k
    ensures |r| <= |xs|
    ensures k in xs ==> |r| < |xs|
    ensures k !in xs ==> r == xs
  {
    if xs == [] then []
    else if xs[0] == k then RemoveAll(xs[1..], k)
    else [xs[0]] + RemoveAll(xs[1..], k)
  }

  lemma {:induction false} RemoveAllNoDup(xs: seq<string>, k: string)
    requires NoDup(xs)
    ensures NoDup(RemoveAll(xs, k))
  {
    if xs != [] {
      NoDupTail(xs);
      RemoveAllNoDup(xs[1..], k);
      var rest := RemoveAll(xs[1..], k);
      if xs[0] != k {
        assert xs[0] !in rest;
        var r := [xs[0]] + rest;
        forall i, j | 0 <= i < j < |r| ensures r[i] != r[j] {
          if i == 0 {
            assert r[j] == rest[j - 1];
          } else {
            assert r[i] == rest[i - 1] && r[j] == rest[j - 1];
          }
        }
      }
    }
  }

  /**
   * Removing a key that occurs exactly once, at position `i`, leaves the other keys in
   * their relative order: what was before it, then what was after it.
   */
  lemma {:induction false} RemoveOnce(xs: seq<string>, i: nat)
    requires i < |xs| && xs[i] !in xs[..i] && xs[i] !in xs[i + 1..]
    ensures RemoveAll(xs, xs[i]) == xs[..i] + xs[i + 1..]
  {
    var k := xs[i];
    if i == 0 {
      assert xs[..0] + xs[1..] == xs[1..];
    } else {
      var tail := xs[1..];
      assert xs[0] == xs[..i][0];
      assert tail[i - 1] == k;
      assert tail[..i - 1] == xs[1..i] && tail[i..] == xs[i + 1..];
      assert k !in tail[..i - 1] by {
        assert xs[1..i] == xs[..i][1..];
      }
      RemoveOnce(tail, i - 1);
      assert xs[..i] + xs[i + 1..] == [xs[0]] + (xs[1..i] + xs[i + 1..]);
    }
  }

  /** In a list without duplicates, the key at position `i` occurs only there. */
  lemma RemoveAllAt(xs: seq<string>, i: nat)
    requires i < |xs| && NoDup(xs)
    ensures RemoveAll(xs, xs[i]) == xs[..i] + xs[i + 1..]
  {
    forall j | 0 <= j < i ensures xs[..i][j] != xs[i] {
      assert xs[..i][j] == xs[j];
    }
    var after := xs[i + 1..];
    forall j | 0 <= j < |after| ensures after[j] != xs[i] {
      assert after[j] == xs[i + 1 + j];
    }
    RemoveOnce(xs, i);
  }

  /** A list without duplicates has as many elements as it has distinct keys. */
  lemma {:induction false} NoDupCard(xs: seq<string>)
    requires NoDup(xs)
    ensures |set x | x in xs| == |xs|
  {
    if xs != [] {
      var tail := xs[1..];
      NoDupTail(xs);
      NoDupCard(tail);
      assert (set x | x in xs) == {xs[0]} + (set x | x in tail) by {
        assert xs == [xs[0]] + tail;
      }
    }
  }
}

=== FILE: request_handler.dfy ===
/**
 * The request handler: it dispatches a parsed request to the store (GET to `lookup`,
 * POST to `insert`, DELETE to `remove`), counts the operation, and builds the response.
 */
module RequestHandler {
  import opened Text
  import opened KVStore
  import opened HttpParser

  /** The status line and header name of a response whose store operation failed. */
  const NotFoundHead: string := "HTTP/1.1 404 Not found\r\nContent-length: "

  /** The status line and header name of a response whose store operation succeeded. */
  const OkHead: string := "HTTP/1.1 200 OK\r\nContent-length: "

  /** A response: status line and header name, the declared length, a blank line, the payload. */
  function Message(head: string, digits: string, payload: string): string {
    head + digits + "\r\n\r\n" + payload
  }

  /** The response to a request whose store operation failed. */
  const NotFoundResponse: string := Message(NotFoundHead, "0", "")

  /** The response to a successful POST or DELETE. */
  const OkEmptyResponse: string := Message(OkHead, "0", "")

  /**
   * The response for a request of kind `kind` whose store operation returned `res` and, for
   * a GET, the value `val`: 404 on a non-zero return code; otherwise 200 with
   * `Content-length` set to the length of `val` for a GET (then `val` and CRLF), and 0 for
   * the others.
   */
  function Response(kind: RequestType, res: int, val: string): (r: string)
    ensures |r| > 12 && r[9..12] == (if res == 0 then "200" else "404")
  {
    StatusCodes();
    if res != 0 then
      MessageStatus(NotFoundHead, "0", "");
      NotFoundResponse
    else if kind == GET then
      MessageStatus(OkHead, NatToString(|val|), val + "\r\n");
      Message(OkHead, NatToString(|val|), val + "\r\n")
    else
      MessageStatus(OkHead, "0", "");
      OkEmptyResponse
  }

  /** Proof helper: the status codes inside the two heads. */
  lemma StatusCodes()
    ensures OkHead[9..12] == "200" && NotFoundHead[9..12] == "404"
  {
    assert OkHead[9] == '2' && OkHead[10] == '0' && OkHead[11] == '0';
    assert NotFoundHead[9] == '4' && NotFoundHead[10] == '0' && NotFoundHead[11] == '4';
  }

  /** A message carries the status code of its head. */
  lemma MessageStatus(head: string, digits: string, payload: string)
    requires |head| > 12
    ensures |Message(head, digits, payload)| > 12 && Message(head, digits, payload)[9..12] == head[9..12]
  {
  }

  /**
   * Every response is a status line, a `Content-length` header whose decimal value is the
   * length of the value returned by a successful GET (0 otherwise), a blank line and a
   * payload; the status is 200 exactly when the store returned 0. The payload of a
   * successful GET is the value followed by a CRLF that the declared length leaves out.
   */
  lemma ResponseLayout(kind: RequestType, res: int, val: string)
    ensures var found := res == 0 && kind == GET;
      var digits := if found then NatToString(|val|) else "0";
      && IsDecimal(digits)
      && DigitsValue(digits) == (if found then |val| else 0)
      && Response(kind, res, val)
        == Message(if res == 0 then OkHead else NotFoundHead, digits, if found then val + "\r\n" else "")
  {
    if res == 0 && kind == GET {
      NatToStringValue(|val|);
    } else {
      assert DigitsValue("0") == DigitsValue("") * 10 + DigitValue('0');
    }
  }

  /**
   * Every response opens with the protocol version of its status line, and its header ends
   * with a blank line, after which comes only the payload: the value and a CRLF for a
   * successful GET, nothing otherwise.
   */
  lemma ResponseFraming(kind: RequestType, res: int, val: string)
    ensures var r := Response(kind, res, val);
      var payload := if res == 0 && kind == GET then val + "\r\n" else "";
      && |r| >= 13 + |payload| && r[..9] == "HTTP/1.1 "
      && r[|r| - |payload| - 4..|r| - |payload|] == "\r\n\r\n" && r[|r| - |payload|..] == payload
  {
    var found := res == 0 && kind == GET;
    var head := if res == 0 then OkHead else NotFoundHead;
    var digits := if found then NatToString(|val|) else "0";
    var payload := if found then val + "\r\n" else "";
    ResponseLayout(kind, res, val);
    var r := Message(head, digits, payload);
    var n := |head| + |digits|;
    assert head[..9] == "HTTP/1.1 ";
    assert r[..9] == head[..9];
    assert r == head + digits + "\r\n\r\n" + payload;
    assert r[n..n + 4] == "\r\n\r\n";
    assert r[n + 4..] == payload;
  }

  /** The operation counters, all 0 when the server starts. */
  class Stats {
    var lookups: nat
    var inserts: nat
    var deletes: nat

    constructor ()
      ensures lookups == 0 && inserts == 0 && deletes == 0
    {
      lookups, inserts, deletes := 0, 0, 0;
    }
  }

  /**
   * `handleRequest(store, request)`: a GET looks the key up, a POST inserts the value, a
   * DELETE removes the key; the matching counter goes up by one and the others stay.
   */
  method HandleRequest(store: ThreadSafeKVStore, stats: Stats, request: Request) returns (response: string)
    requires store.Valid()
    modifies store, stats
    ensures store.Valid()
    ensures request.kind == GET ==>
      && store.Snap() == LookupSpec(old(store.Snap()), store.cacheSize, request.key).next
      && var before := old(Contents(store.Snap()));
      && response == (if request.key in before then Response(GET, 0, before[request.key]) else NotFoundResponse)
      && stats.lookups == old(stats.lookups) + 1 && stats.inserts == old(stats.inserts) && stats.deletes == old(stats.deletes)
    ensures request.kind == POST ==>
      && store.Snap() == InsertSpec(old(store.Snap()), store.cacheSize, request.key, request.value)
      && Contents(store.Snap()) == old(Contents(store.Snap()))[request.key := request.value]
      && response == OkEmptyResponse
      && stats.inserts == old(stats.inserts) + 1 && stats.lookups == old(stats.lookups) && stats.deletes == old(stats.deletes)
    ensures request.kind == DELETE ==>
      && store.Snap() == RemoveSpec(old(store.Snap()), request.key)
      && Contents(store.Snap()) == old(Contents(store.Snap())) - {request.key}
      && response == OkEmptyResponse
      && stats.deletes == old(stats.deletes) + 1 && stats.lookups == old(stats.lookups) && stats.inserts == old(stats.inserts)
  {
    var res: int;
    var val := "";
    match request.kind {
      case GET =>
        res, val := store.Lookup(request.key);
        stats.lookups := stats.lookups + 1;
      case POST =>
        res := store.Insert(request.key, request.value);
        stats.inserts := stats.inserts + 1;
      case DELETE =>
        res := store.Remove(request.key);
        stats.deletes := stats.deletes + 1;
    }
    response := Response(request.kind, res, val);
  }

  /** Proof helper: the first half of the header name, lower-cased. */
  lemma LowerContent()
    ensures Lower("Content-") == "content-"
  {
  }

  /** Proof helper: the second half of the header name, lower-cased. */
  lemma LowerLength()
    ensures Lower("Length:") == "length:"
  {
  }

  /** Proof helper: the header name split where `Lower` is applied piecewise. */
  lemma HeaderHalves()
    ensures "Content-" + "Length:" == "Content-Length:"
    ensures "content-" + "length:" == "content-length:"
  {
  }

  /** The header name as a client usually spells it is the one the parser looks for. */
  lemma HeaderSpelling()
    ensures Lower("Content-Length:") == "content-length:"
  {
    var a, b := "Content-", "Length:";
    LowerAppend(a, b);
    LowerContent();
    LowerLength();
    HeaderHalves();
  }

  /** Proof helper: the key of the scenario is a valid key. */
  lemma KeyA()
    ensures ValidKey("a")
  {
    assert "a"[0] == 'a';
  }

  /** Proof helper: the body of the scenario has no NUL and fits the length. */
  lemma BodyHello()
    ensures '\0' !in "hello" && |"hello"| <= IntMax
  {
    assert "hello"[0] == 'h' && "hello"[1] == 'e' && "hello"[2] == 'l' && "hello"[3] == 'l' && "hello"[4] == 'o';
  }

  /** The POST of the scenario parses to an insertion of "hello" under "a". */
  lemma ScenarioPost(request: Request)
    ensures Parse(PostRequest("a", "Content-Length:", "hello"), request) == Returned(0, Request(POST, "a", "hello"))
  {
    HeaderSpelling();
    KeyA();
    BodyHello();
    ParsePost("a", "Content-Length:", "hello", request);
  }

  /** A bare GET or DELETE request line for "a" parses to that kind and key, keeping the last value. */
  lemma ScenarioLine(kind: RequestType, request: Request)
    requires kind != POST
    ensures Parse(RequestLine(kind, "a", "HTTP/1.1"), request) == Returned(0, request.(kind := kind, key := "a"))
  {
    var line := RequestLine(kind, "a", "HTTP/1.1");
    assert line + "" == line;
    KeyA();
    ParseRequestLine(kind, "a", "", request);
  }

  /** The response to a GET that finds "hello". */
  lemma HelloResponse()
    ensures Response(GET, 0, "hello") == Message(OkHead, "5", "hello\r\n")
  {
    assert |"hello"| == 5;
    assert NatToString(5) == "5";
    assert "hello" + "\r\n" == "hello\r\n";
  }

  /**
   * One connection's requests, parsed and handled in turn with the same request object:
   * `POST /a HTTP/1.1` with `Content-Length: 5` and the body "hello", then `GET /a`,
   * `DELETE /a` and `GET /a`, against any directory and any cache size.
   */
  method Scenario(disk: Disk, cacheSize: nat) returns (r1: string, r2: string, r3: string, r4: string)
    ensures r1 == OkEmptyResponse
    ensures r2 == Message(OkHead, "5", "hello\r\n")
    ensures r3 == OkEmptyResponse
    ensures r4 == NotFoundResponse
  {
    var store := new ThreadSafeKVStore(disk, cacheSize);
    var stats := new Stats();
    var request := Request(GET, "", "");

    ScenarioPost(request);
    var outcome := ParseHTTP(PostRequest("a", "Content-Length:", "hello"), request);
    request := outcome.request;
    r1 := HandleRequest(store, stats, request);

    var get := RequestLine(GET, "a", "HTTP/1.1");
    ScenarioLine(GET, request);
    outcome := ParseHTTP(get, request);
    request := outcome.request;
    r2 := HandleRequest(store, stats, request);
    HelloResponse();

    var delete := RequestLine(DELETE, "a", "HTTP/1.1");
    ScenarioLine(DELETE, request);
    outcome := ParseHTTP(delete, request);
    request := outcome.request;
    r3 := HandleRequest(store, stats, request);

    ScenarioLine(GET, request);
    outcome := ParseHTTP(get, request);
    request := outcome.request;
    r4 := HandleRequest(store, stats, request);
  }
}

=== FILE: task_queue.dfy ===
/**
 * The FIFO task queue: a singly linked chain of nodes whose first node is a sentinel.
 *
 * `head` always points at the sentinel and `tail` at the last node, so the queue is empty
 * exactly when `head == tail`. Nodes live in a heap of handles (`nodes`); allocating a
 * node takes a handle never used before and deleting a node removes its handle. The
 * ghost fields `chain` (the handles from `head` to `tail`) and `Contents` (the queued
 * elements, oldest first) give the abstract view. Every operation is atomic here.
 */
module TaskQueue {
  import opened Wrappers

  type Handle = nat

  /** A node: its element (the first sentinel holds none) and its successor (null for the last node). */
  datatype Node<T> = Node(data: Option<T>, next: Option<Handle>)

  /**
   * The heap `nodes` holds exactly the nodes of `chain`, all distinct and below the next
   * free handle; each node of the chain but the last links to the following one, and the
   * nodes after the sentinel hold `contents` in order.
   */
  ghost predicate Linked<T>(nodes: map<Handle, Node<T>>, chain: seq<Handle>, contents: seq<T>, nextHandle: Handle) {
    && |chain| == |contents| + 1
    && (forall i, j :: 0 <= i < j < |chain| ==> chain[i] != chain[j])
    && (forall i :: 0 <= i < |chain| ==> chain[i] in nodes)
    && (forall h :: h in nodes ==> h in chain && h < nextHandle)
    && (forall i :: 0 <= i < |chain| - 1 ==> nodes[chain[i]].next == Some(chain[i + 1]))
    && (forall i :: 1 <= i < |chain| ==> nodes[chain[i]].data == Some(contents[i - 1]))
  }

  /** Linking a fresh node holding `elem` after the last node extends the chain and the contents by one. */
  lemma LinkedAppend<T>(nodes: map<Handle, Node<T>>, chain: seq<Handle>, contents: seq<T>, nextHandle: Handle, elem: T)
    requires Linked(nodes, chain, contents, nextHandle)
    ensures var last := chain[|chain| - 1];
      var nodes' := nodes[nextHandle := Node(Some(elem), None)];
      var nodes'' := nodes'[last := nodes'[last].(next := Some(nextHandle))];
      Linked(nodes'', chain + [nextHandle], contents + [elem], nextHandle + 1)
  {
    var last := chain[|chain| - 1];
    var n := nextHandle;
    var nodes' := nodes[n := Node(Some(elem), None)];
    var nodes'' := nodes'[last := nodes'[last].(next := Some(n))];
    var chain' := chain + [n];
    var contents' := contents + [elem];
    assert n !in chain by {
      forall i | 0 <= i < |chain| ensures chain[i] != n {
        assert chain[i] in nodes;
      }
    }
    forall i, j | 0 <= i < j < |chain'| ensures chain'[i] != chain'[j] {
      if j < |chain| {
        assert chain'[i] == chain[i] && chain'[j] == chain[j];
      } else {
        assert chain'[i] == chain[i];
      }
    }
    forall h | h in nodes'' ensures h in chain' && h < n + 1 {
      if h != n {
        assert h in nodes;
        var k :| 0 <= k < |chain| && chain[k] == h;
        assert chain'[k] == h;
      }
    }
    forall i | 0 <= i < |chain'| - 1 ensures nodes''[chain'[i]].next == Some(chain'[i + 1]) {
      assert chain'[i] == chain[i];
      if i < |chain| - 1 {
        assert chain[i] != last;
        assert chain'[i + 1] == chain[i + 1];
      }
    }
    forall i | 1 <= i < |chain'| ensures nodes''[chain'[i]].data == Some(contents'[i - 1]) {
      if i < |chain| {
        assert chain'[i] == chain[i] && chain[i] != n;
        assert contents'[i - 1] == contents[i - 1];
      }
    }
  }

  /**
   * Deleting the sentinel of a chain with at least one element leaves a chain whose
   * sentinel is the former first element node, and whose contents lose their first element.
   */
  lemma LinkedPop<T>(nodes: map<Handle, Node<T>>, chain: seq<Handle>, contents: seq<T>, nextHandle: Handle)
    requires Linked(nodes, chain, contents, nextHandle) && |chain| > 1
    ensures nodes[chain[0]].next == Some(chain[1])
    ensures nodes[chain[1]].data == Some(contents[0])
    ensures Linked(nodes - {chain[0]}, chain[1..], contents[1..], nextHandle)
  {
    var nodes' := nodes - {chain[0]};
    var chain' := chain[1..];
    forall i, j | 0 <= i < j < |chain'| ensures chain'[i] != chain'[j] {
      assert chain'[i] == chain[i + 1] && chain'[j] == chain[j + 1];
    }
    forall i | 0 <= i < |chain'| ensures chain'[i] in nodes' {
      assert chain'[i] == chain[i + 1] && chain[i + 1] != chain[0];
    }
    forall h | h in nodes' ensures h in chain' && h < nextHandle {
      var k :| 0 <= k < |chain| && chain[k] == h;
      assert k != 0;
      assert chain'[k - 1] == h;
    }
    forall i | 0 <= i < |chain'| - 1 ensures nodes'[chain'[i]].next == Some(chain'[i + 1]) {
      assert chain'[i] == chain[i + 1] && chain'[i + 1] == chain[i + 2];
    }
    forall i | 1 <= i < |chain'| ensures nodes'[chain'[i]].data == Some(contents[1..][i - 1]) {
      assert chain'[i] == chain[i + 1];
    }
  }

  class ThreadSafeQueue<T> {
    var nodes: map<Handle, Node<T>>
    var head: Handle
    var tail: Handle
    var nextHandle: Handle
    ghost var chain: seq<Handle>
    ghost var Contents: seq<T>

    ghost predicate Valid()
      reads this
    {
      && Linked(nodes, chain, Contents, nextHandle)
      && head == chain[0]
      && tail == chain[|chain| - 1]
    }

    /** A new queue: a single sentinel node that both `head` and `tail` point at. */
    constructor ()
      ensures Valid() && Contents == []
      ensures head == tail && nodes.Keys == {head}
    {
      nodes := map[0 := Node(None, None)];
      head, tail := 0, 0;
      nextHandle := 1;
      chain := [0];
      Contents := [];
    }

    /** `empty()`: true exactly when `head == tail`, which is exactly when nothing is queued. */
    predicate IsEmpty()
      requires Valid()
      reads this
      ensures IsEmpty() <==> Contents == []
    {
      head == tail
    }

    /** Append `elem` in a new node after the current tail, which becomes the new tail. */
    method Enqueue(elem: T)
      requires Valid()
      modifies this
      ensures Valid() && Contents == old(Contents) + [elem] && !IsEmpty()
      ensures head == old(head) && tail !in old(nodes)
      ensures nodes == old(nodes)[old(tail) := old(nodes[tail]).(next := Some(tail))][tail := Node(Some(elem), None)]
    {
      ghost var c0, cs0 := chain, Contents;
      LinkedAppend(nodes, c0, cs0, nextHandle, elem);
      var n := nextHandle;
      nextHandle := nextHandle + 1;
      nodes := nodes[n := Node(Some(elem), None)];
      nodes := nodes[tail := nodes[tail].(next := Some(n))];
      tail := n;
      chain := c0 + [n];
      Contents := cs0 + [elem];
    }

    /**
     * Remove and return the oldest element, the data of `head->next`. That node becomes
     * the new sentinel and the old sentinel is deleted. The source waits while the queue
     * is empty; here the caller must see it non-empty.
     */
    method Dequeue() returns (x: T)
      requires Valid() && !IsEmpty()
      modifies this
      ensures Valid()
      ensures x == old(Contents)[0] && Contents == old(Contents)[1..]
      ensures old(nodes[head].next) == Some(head) && tail == old(tail)
      ensures nodes == old(nodes) - {old(head)}
    {
      ghost var n0, c0, cs0 := nodes, chain, Contents;
      LinkedPop(n0, c0, cs0, nextHandle);
      var tmp := head;
      head := nodes[head].next.value;
      nodes := nodes - {tmp};
      x := nodes[head].data.value;
      chain := c0[1..];
      Contents := cs0[1..];
    }

    /**
     * The loop both destructors share: starting at the node `from`, at position `start` of
     * the chain, delete each node and follow its `next` pointer until `tail` is reached.
     * `tail` itself is not deleted.
     */
    method DeleteUntilTail(from: Handle, ghost start: nat)
      requires Valid() && start < |chain| && from == chain[start]
      modifies this
      ensures chain == old(chain) && head == old(head) && tail == old(tail)
      ensures forall k :: 0 <= k < |chain| ==> (chain[k] in nodes <==> k < start || k == |chain| - 1)
      ensures forall h :: h in nodes ==> h in old(nodes) && nodes[h] == old(nodes)[h]
    {
      ghost var c, n0 := chain, nodes;
      var tmp := from;
      ghost var i := start;
      while tmp != tail
        invariant c == chain && head == c[0] && tail == c[|c| - 1]
        invariant start <= i < |c| && tmp == c[i]
        invariant forall k :: 0 <= k < |c| ==> (c[k] in nodes <==> k < start || i <= k)
        invariant forall h :: h in nodes ==> h in n0 && nodes[h] == n0[h]
        decreases |c| - i
      {
        assert i < |c| - 1 && n0[c[i]].next == Some(c[i + 1]);
        var tmp2 := tmp;
        tmp := nodes[tmp].next.value;
        nodes := nodes - {tmp2};
        i := i + 1;
      }
    }

    /**
     * The destructor as written: when the queue is non-empty it deletes the nodes from
     * `head->next` up to, but not including, `tail`, then the sentinel. The last node is
     * never deleted.
     */
    method Destroy()
      requires Valid()
      modifies this
      ensures old(head == tail) ==> nodes == map[]
      ensures old(head != tail) ==> nodes == map[old(tail) := old(nodes[tail])]
    {
      ghost var c, n0 := chain, nodes;
      if head != tail {
        assert nodes[c[0]].next == Some(c[1]);
        DeleteUntilTail(nodes[head].next.value, 1);
        forall h | h in nodes ensures h == head || h == tail {
          var k :| 0 <= k < |c| && c[k] == h;
        }
      }
      nodes := nodes - {head};
    }

    /** The destructor as intended: delete every node of the chain, the last one included. */
    method DestroyAll()
      requires Valid()
      modifies this
      ensures nodes == map[]
    {
      ghost var c := chain;
      DeleteUntilTail(head, 0);
      forall h | h in nodes ensures h == tail {
        var k :| 0 <= k < |c| && c[k] == h;
      }
      nodes := nodes - {tail};
    }
  }

  /** A new queue holding `xs`, enqueued one after another. */
  method Filled<T>(xs: seq<T>) returns (q: ThreadSafeQueue<T>)
    ensures fresh(q) && q.Valid() && q.Contents == xs
  {
    q := new ThreadSafeQueue<T>();
    for i := 0 to |xs|
      invariant q.Valid() && q.Contents == xs[..i]
    {
      q.Enqueue(xs[i]);
      assert xs[..i + 1] == xs[..i] + [xs[i]];
    }
  }

  /** Moving the first element of `c` to the end of `ys` keeps their concatenation. */
  lemma MoveFront<T>(ys: seq<T>, c: seq<T>)
    requires c != []
    ensures ys + c == (ys + [c[0]]) + c[1..]
  {
    assert c == [c[0]] + c[1..];
  }

  /** Dequeue until the queue is empty, collecting the elements in the order they come out. */
  method Drain<T>(q: ThreadSafeQueue<T>) returns (ys: seq<T>)
    requires q.Valid()
    modifies q
    ensures q.Valid() && q.Contents == [] && ys == old(q.Contents)
  {
    ys := [];
    while !q.IsEmpty()
      invariant q.Valid() && old(q.Contents) == ys + q.Contents
      decreases |q.Contents|
    {
      ghost var before := q.Contents;
      var x := q.Dequeue();
      MoveFront(ys, before);
      ys := ys + [x];
    }
  }

  /** Elements enqueued one after another come out in the order they went in. */
  method EnqueueThenDrain<T>(xs: seq<T>) returns (ys: seq<T>)
    ensures ys == xs
  {
    var q := Filled(xs);
    ys := Drain(q);
  }

  /** A queue that held one element when it was destroyed still has that node allocated. */
  method DestroyLeaksLastNode<T>(x: T) returns (leaked: nat)
    ensures leaked == 1
  {
    var q := new ThreadSafeQueue<T>();
    q.Enqueue(x);
    q.Destroy();
    leaked := |q.nodes|;
  }

  /** With the corrected destructor nothing stays allocated. */
  method DestroyAllLeavesNothing<T>(x: T) returns (leaked: nat)
    ensures leaked == 0
  {
    var q := new ThreadSafeQueue<T>();
    q.Enqueue(x);
    q.DestroyAll();
    leaked := |q.nodes|;
  }
}

=== FILE: text.dfy ===
/**
 * Character classes and decimal numbers as the C++ library sees them in the "C" locale:
 * `std::isspace`, `std::tolower`, `std::to_string` of a length and `std::stoi`.
 */
module Text {
  import opened Wrappers

  const IntMax: int := 2147483647
  const IntMin: int := -2147483648

  /** `std::isspace`: space, tab, newline, vertical tab, form feed and carriage return. */
  predicate IsSpace(c: char) {
    c == ' ' || c == '\t' || c == '\n' || c == '\U{000B}' || c == '\U{000C}' || c == '\r'
  }

  predicate IsDigit(c: char) {
    '0' <= c <= '9'
  }

  predicate AllSpace(s: string) {
    forall i :: 0 <= i < |s| ==> IsSpace(s[i])
  }

  predicate NoSpace(s: string) {
    forall i :: 0 <= i < |s| ==> !IsSpace(s[i])
  }

  predicate IsDecimal(s: string) {
    |s| > 0 && forall i :: 0 <= i < |s| ==> IsDigit(s[i])
  }

  /** `std::tolower`: only the letters 'A' to 'Z' change. */
  function LowerChar(c: char): (d: char)
    ensures 'A' <= c <= 'Z' ==> 'a' <= d <= 'z' && d as int - c as int == 32
    ensures !('A' <= c <= 'Z') ==> d == c
  {
    if 'A' <= c <= 'Z' then (c as int + 32) as char else c
  }

  /** The string with every character passed through `std::tolower`. */
  function Lower(s: string): (r: string)
    ensures |r| == |s|
    ensures forall i :: 0 <= i < |s| ==> r[i] == LowerChar(s[i])
  {
    if s == [] then [] else [LowerChar(s[0])] + Lower(s[1..])
  }

  /** Lower-casing twice is lower-casing once. */
  lemma LowerIdempotent(s: string)
    ensures Lower(Lower(s)) == Lower(s)
  {
  }

  /** Lower-casing works character by character, so it distributes over concatenation. */
  lemma LowerAppend(a: string, b: string)
    ensures Lower(a + b) == Lower(a) + Lower(b)
  {
    var l, r := Lower(a + b), Lower(a) + Lower(b);
    assert |l| == |r|;
    forall i | 0 <= i < |l| ensures l[i] == r[i] {
      if i < |a| {
        assert (a + b)[i] == a[i];
      } else {
        assert (a + b)[i] == b[i - |a|];
      }
    }
  }

  /** Lower-casing neither creates nor removes white space or NUL characters. */
  lemma LowerKeepsClasses(s: string)
    ensures NoSpace(Lower(s)) <==> NoSpace(s)
    ensures '\0' in Lower(s) <==> '\0' in s
  {
    assert forall k :: 0 <= k < |s| ==> Lower(s)[k] == LowerChar(s[k]);
    if '\0' in s {
      var k :| 0 <= k < |s| && s[k] == '\0';
      assert Lower(s)[k] == '\0';
    }
  }

  // ---------------------------------------------------------------------------------------
  // Scanning

  /** The first position at or after `i` that does not hold white space (or the end). */
  function SkipSpace(s: string, i: nat): (j: nat)
    requires i <= |s|
    ensures i <= j <= |s|
    ensures forall k :: i <= k < j ==> IsSpace(s[k])
    ensures j < |s| ==> !IsSpace(s[j])
    decreases |s| - i
  {
    if i < |s| && IsSpace(s[i]) then SkipSpace(s, i + 1) else i
  }

  /** The first position at or after `i` that holds white space (or the end). */
  function SpaceFrom(s: string, i: nat): (j: nat)
    requires i <= |s|
    ensures i <= j <= |s|
    ensures forall k :: i <= k < j ==> !IsSpace(s[k])
    ensures j < |s| ==> IsSpace(s[j])
    decreases |s| - i
  {
    if i < |s| && !IsSpace(s[i]) then SpaceFrom(s, i + 1) else i
  }

  /** The first position at or after `i` that does not hold a digit (or the end). */
  function DigitsEnd(s: string, i: nat): (j: nat)
    requires i <= |s|
    ensures i <= j <= |s|
    ensures forall k :: i <= k < j ==> IsDigit(s[k])
    ensures j < |s| ==> !IsDigit(s[j])
    decreases |s| - i
  {
    if i < |s| && IsDigit(s[i]) then DigitsEnd(s, i + 1) else i
  }

  /** `SkipSpace` stops at `j` when the text from `i` to `j` is white space and the character at `j` is not. */
  lemma SkipSpaceTo(s: string, i: nat, j: nat)
    requires i <= j <= |s| && AllSpace(s[i..j])
    requires j < |s| ==> !IsSpace(s[j])
    ensures SkipSpace(s, i) == j
  {
    forall k | i <= k < j ensures IsSpace(s[k]) {
      assert s[k] == s[i..j][k - i];
    }
  }

  /** `DigitsEnd` stops at `j` when the text from `i` to `j` is digits and the character at `j` is not. */
  lemma DigitsEndTo(s: string, i: nat, j: nat)
    requires i <= j <= |s| && forall k :: i <= k < j ==> IsDigit(s[k])
    requires j < |s| ==> !IsDigit(s[j])
    ensures DigitsEnd(s, i) == j
  {
  }

  // ---------------------------------------------------------------------------------------
  // Decimal numbers

  function DigitChar(d: nat): (c: char)
    requires d < 10
    ensures IsDigit(c)
  {
    ('0' as int + d) as char
  }

  function DigitValue(c: char): (d: nat)
    requires IsDigit(c)
    ensures d < 10 && DigitChar(d) == c
  {
    c as int - '0' as int
  }

  /** The value of a string of decimal digits, most significant first. */
  function DigitsValue(ds: string): nat
    requires forall i :: 0 <= i < |ds| ==> IsDigit(ds[i])
  {
    if ds == [] then 0 else DigitsValue(ds[..|ds| - 1]) * 10 + DigitValue(ds[|ds| - 1])
  }

  /** `std::to_string` of a non-negative number: its shortest decimal digits. */
  function NatToString(n: nat): (s: string)
    ensures IsDecimal(s)
    ensures n < 10 <==> |s| == 1
    ensures n == 0 ==> s == "0"
    ensures n > 0 ==> s[0] != '0'
    decreases n
  {
    if n < 10 then [DigitChar(n)] else NatToString(n / 10) + [DigitChar(n % 10)]
  }

  /** Reading back the digits written by `NatToString` gives the number. */
  lemma {:induction false} NatToStringValue(n: nat)
    ensures DigitsValue(NatToString(n)) == n
    decreases n
  {
    var s := NatToString(n);
    if n >= 10 {
      NatToStringValue(n / 10);
      assert s[..|s| - 1] == NatToString(n / 10);
      assert DigitValue(s[|s| - 1]) == n % 10;
    } else {
      assert DigitValue(s[0]) == n;
    }
  }

  /**
   * `std::stoi`: skip white space, take an optional sign and at least one digit, and stop
   * at the first character that is not a digit. `None` stands for the exception it throws
   * when there is no digit or the value does not fit an `int`.
   */
  function StoI(s: string): (r: Option<int>)
    ensures r.Some? ==> IntMin <= r.value <= IntMax
  {
    var i := SkipSpace(s, 0);
    var negative := i < |s| && s[i] == '-';
    var j := if i < |s| && (s[i] == '-' || s[i] == '+') then i + 1 else i;
    var k := DigitsEnd(s, j);
    if k == j then None
    else
      var magnitude: int := DigitsValue(s[j..k]);
      var v: int := if negative then -magnitude else magnitude;
      if v < IntMin || v > IntMax then None else Some(v)
  }

  /** `std::stoi` reads back a number written by `std::to_string`, after white space and before a non-digit. */
  lemma StoINatToString(ws: string, n: nat, rest: string)
    requires AllSpace(ws) && n <= IntMax
    requires rest == [] || !IsDigit(rest[0])
    ensures StoI(ws + NatToString(n) + rest) == Some(n)
  {
    var ds := NatToString(n);
    var s := ws + ds + rest;
    var i, j := |ws|, |ws| + |ds|;
    assert s[0..i] == ws;
    assert s[i] == ds[0];
    SkipSpaceTo(s, 0, i);
    forall k | i <= k < j ensures IsDigit(s[k]) {
      assert s[k] == ds[k - i];
    }
    if j < |s| {
      assert s[j] == rest[0];
    }
    DigitsEndTo(s, i, j);
    assert s[i..j] == ds;
    NatToStringValue(n);
  }

  /**
   * `std::stoi` throws when, after white space, the next character is neither a sign nor a
   * digit, or when there is nothing left.
   */
  lemma StoINoDigits(ws: string, rest: string)
    requires AllSpace(ws)
    requires rest != [] ==> !IsSpace(rest[0]) && !IsDigit(rest[0]) && rest[0] != '-' && rest[0] != '+'
    ensures StoI(ws + rest) == None
  {
    var s := ws + rest;
    assert s[0..|ws|] == ws;
    if rest != [] {
      assert s[|ws|] == rest[0];
    }
    SkipSpaceTo(s, 0, |ws|);
    DigitsEndTo(s, |ws|, |ws|);
  }

  /** `std::stoi` throws on a number that does not fit an `int`. */
  lemma StoIOverflow(ws: string, n: nat, rest: string)
    requires AllSpace(ws) && n > IntMax
    requires rest == [] || !IsDigit(rest[0])
    ensures StoI(ws + NatToString(n) + rest) == None
  {
    var ds := NatToString(n);
    var s := ws + ds + rest;
    var i, j := |ws|, |ws| + |ds|;
    assert s[0..i] == ws;
    assert s[i] == ds[0];
    SkipSpaceTo(s, 0, i);
    forall k | i <= k < j ensures IsDigit(s[k]) {
      assert s[k] == ds[k - i];
    }
    if j < |s| {
      assert s[j] == rest[0];
    }
    DigitsEndTo(s, i, j);
    assert s[i..j] == ds;
    NatToStringValue(n);
  }
}

=== FILE: wrappers.dfy ===
/** Optional values, used for a node's possibly-null successor and for conversions that may fail. */
module Wrappers {
  datatype Option<+T> = None | Some(value: T)
}
